=== FILE: README.md ===
# Handball federation portal — a Dafny model of its core

The portal shows a regional handball federation's teams, standings, fixtures, scorers and
news, and gives administrators forms to edit teams, players and matches. Its only non-trivial
logic sits in two places, and both are modelled here:

- **The AI service.** It has two copies. `services/geminiService.ts` is the copy the application
  imports. Its news, match-sheet and image functions throw every failure to their caller; its
  strategy function catches failures and answers "Error al conectar con el asistente."
  (`services/geminiService.ts:63-66`). `src/services/geminiService.ts` is a lenient copy. It
  replaces every failure except a match-sheet failure with fixed fallback content. Each copy
  writes news articles, suggests match tactics, reads scores out of an uploaded match sheet,
  and draws a hero image. Without an API key both copies answer news, strategy and match-sheet
  requests from fixtures; for the image, the imported copy throws "API Key requerida para
  generar imágenes." (`services/geminiService.ts:158-160`) and the lenient copy returns a fixed
  stock photo.
- **The pure parts of `App.tsx`.** These are the federation/gender filters of the public views,
  the standings and top-scorer orderings, and the admin handlers that save and delete players,
  teams and matches. They also include publishing a generated article and comparing an analysed
  match sheet with the roster.

The generative-AI gateway is a function parameter `gw: Request -> Reply`. JSON parsing is a
parameter `parse: string -> Option<T>`. The API key is an `Option<string>`; it is present when
it is a non-empty string. The clock (`Date.now()` ids, today's date) and the user's `confirm`
answer are parameters too.

Modules, one per file:

| file | module | models |
|---|---|---|
| wrappers.dfy | `Wrappers` | `Option`, `Result`, JavaScript truthiness of an optional string |
| seqs.dfy | `Seqs` | `Array.prototype.filter`, order preservation (subsequence) and the `map` that rewrites the selected records |
| sorting.dfy | `Sorting` | the stable `sort` with a `b.key - a.key` comparator |
| text.dfy | `Text` | `parseInt(s) \|\| 0`, `n.toString()`, `toLowerCase` (ASCII), `includes` |
| types.dfy | `Types` | the records of `types.ts` |
| datauri.dfy | `DataUri` | the match of `/^data:(.+);base64,(.+)$/` |
| gateway.dfy | `Gateway` | requests, replies, the JSON reply path, the image-part scan |
| prompts.dfy | `Prompts` | the prompts both copies send |
| gemini_service.dfy | `GeminiService` | `services/geminiService.ts` |
| src_gemini_service.dfy | `SrcGeminiService` | `src/services/geminiService.ts` |
| copies.dfy | `ServiceCopies` | how the two copies relate |
| filters.dfy | `Filters` | `getFilteredTeams`, `getFilteredMatches`, `getFilteredNews`, `getFilteredPlayers` |
| rankings.dfy | `Rankings` | the standings and top-scorer tables |
| players.dfy | `PlayerAdmin` | `handleSavePlayer`, `handleEditPlayerClick`, `handleDeletePlayer` |
| teams.dfy | `TeamAdmin` | `openTeamModal`, `handleSaveTeam` |
| matches.dfy | `MatchAdmin` | `openMatchModal`, `handleSaveMatch`, `handleDeleteMatch` |
| analysis.dfy | `SheetCheck` | `handleApplyAnalysis` |
| news.dfy | `NewsDesk` | `handleGenerateNews` |

Points about the code's behaviour that a reader might not expect:

- The imported copy's `generateHandballImage` throws "API Key requerida para generar imágenes."
  without a key (`services/geminiService.ts:158-160`). It has no image fallback; only the
  lenient copy has one (`src/services/geminiService.ts:131-133`).
- The lenient copy swallows news and image failures (`src/services/geminiService.ts:40-47`,
  `:162-165`), so those never reach its caller.
- The lenient copy's `analyzeMatchSheet` re-throws, just like the imported copy
  (`src/services/geminiService.ts:124-127`).
- The imported copy's demo article contains the topic (`services/geminiService.ts:12`). The
  lenient copy's demo article is fixed (`SrcGeminiService.DemoArticleIgnoresInput`).
- Neither copy checks the shape of the AI's JSON: whatever `JSON.parse` returns is passed on.

## Model

| member | source | states |
|---|---|---|
| `Seqs.Filter` | App.tsx:166-170 | the kept elements are exactly the input's elements that satisfy the predicate, and there are no more of them than in the input |
| `Seqs.FilterIsSubsequence` | App.tsx:166-170 | a filter keeps the input's order (its result is a subsequence of the input) |
| `Seqs.ReplaceNothingHit` | App.tsx:406 | the `map` behind every edit (players at 312, teams at 406, matches at 464) changes nothing when no record carries the edited id |
| `Seqs.ReplaceKeepsKey` | App.tsx:406 | when the rewrite keeps a selected record's id, every position of the list keeps its id |
| `Seqs.ReplaceTwice` | App.tsx:406 | rewriting twice with a rewrite that is idempotent on the selection is the same as rewriting once |
| `Sorting.SortDesc` | App.tsx:646 | the sorted list is a permutation of the input, in non-increasing key order |
| `Sorting.SortDescStable` | App.tsx:646 | elements with equal keys keep their input order (the sort is stable) |
| `Text.ParseIntOr0` | App.tsx:318 | `parseInt(s) \|\| 0` is never negative for a string that starts with a digit, and is 0 for an unsigned string that does not start with a digit; its value on each form of input is stated by the four lemmas below |
| `Text.ParseNegative` | App.tsx:318 | a minus sign followed by digits reads as the negated digits, so "-12abc" reads as -12 |
| `Text.ParsePositive` | App.tsx:318 | a plus sign followed by digits reads as the digits, so "+7" reads as 7 |
| `Text.ParseSignWithoutDigits` | App.tsx:318 | a sign not followed by a digit reads as 0 (`NaN \|\| 0`) |
| `Text.ParseIgnoresTrailing` | App.tsx:318 | a number is read up to the first non-digit, so "12abc" reads as 12 |
| `Text.ParseIntOfIntToString` | App.tsx:352 | parsing an integer's decimal `toString()` gives the integer back, so a dorsal survives the edit form (for the integers JavaScript prints in plain decimal and holds exactly; see below) |
| `Text.Lower` | App.tsx:295-296 | `toLowerCase` on ASCII: same length, no capital letter left, each capital replaced by its small letter, every other character kept |
| `Text.LowerIdempotent` | App.tsx:295-296 | lower-casing an already lower-cased name changes nothing |
| `Text.Includes` | App.tsx:295-296 | `s.includes(t)` holds exactly when `t` occurs in `s` at some position |
| `DataUri.Split` | services/geminiService.ts:95-102 | a result is a match of the pattern and has the longest possible media type (the greedy group); no result means no split of the string matches |
| `DataUri.SplitRoundTrip` | services/geminiService.ts:95-102 | building `data:<mime>;base64,<data>` and splitting it gives back the media type and the payload, when both are single lines and the payload holds no `;base64,` |
| `DataUri.LongerGroupImpossible` | services/geminiService.ts:95 | no match of a built URI has a longer media type than the one it was built from |
| `DataUri.SplitAcceptsPng` | services/geminiService.ts:95-102 | `data:image/png;base64,QUJD` splits into `image/png` and `QUJD` |
| `DataUri.SplitRejectsNoScheme` | services/geminiService.ts:97-99 | a string without the `data:` scheme is refused |
| `DataUri.SplitRejectsEmptyMime` | services/geminiService.ts:97-99 | an empty media type is refused |
| `DataUri.SplitRejectsEmptyData` | services/geminiService.ts:97-99 | an empty payload is refused |
| `Gateway.ParseReply` | services/geminiService.ts:38-45 | a thrown call is re-thrown as is; a missing or empty text throws the given message; otherwise success exactly when the text parses, with the parsed value |
| `Gateway.FirstImage` | services/geminiService.ts:181-189 | there is no image exactly when no part has non-empty inline data; otherwise the image is the data URI of the first such part |
| `Gateway.ImageUriSplits` | services/geminiService.ts:184 | the returned image URI splits back into its media type and payload |
| `Gateway.JpegPartUri` | services/geminiService.ts:184 | a JPEG part becomes `data:image/jpeg;base64,` followed by its payload |
| `Gateway.UnlabelledPartIsPng` | services/geminiService.ts:184 | a part without a media type is labelled `image/png` |
| `Prompts.DetailsClause` | services/geminiService.ts:19 | the details line is empty exactly when the details are absent or empty, and otherwise contains them |
| `Prompts.ArticlePromptHasTopic` | services/geminiService.ts:16-18 | the article prompt contains the topic |
| `Prompts.ArticlePromptHasDetails` | services/geminiService.ts:19 | non-empty details appear in the article prompt |
| `Prompts.ArticlePromptWithoutDetails` | services/geminiService.ts:19 | the prompt equals the no-details prompt exactly when the details are absent or empty |
| `Prompts.StrategyPromptContents` | services/geminiService.ts:53-56 | the strategy prompt names both teams |
| `GeminiService.GenerateNewsArticle` | services/geminiService.ts:6-46 | without a key, the demo article, whose content contains the topic; with a key, success exactly when the reply text is non-empty and parses; a gateway error is re-thrown; an empty reply throws "No response from AI" |
| `GeminiService.ArticleErrorPropagates` | services/geminiService.ts:42-45 | a gateway error during article generation reaches the caller unchanged |
| `GeminiService.GenerateMatchStrategy` | services/geminiService.ts:48-68 | the function is total: fixed advice without a key, the reply text when it is non-empty, fixed texts for an empty reply and for an error |
| `GeminiService.StrategyOutcomes` | services/geminiService.ts:49-67 | the advice is one of the three fixed strings or the AI's own non-empty text |
| `GeminiService.AnalyzeMatchSheet` | services/geminiService.ts:71-155 | without a key, the fixture; with a key, a malformed data URI throws before any request, and otherwise the reply goes through the JSON path with the split media type and payload |
| `GeminiService.SheetWithoutKey` | services/geminiService.ts:72-91 | without a key the result succeeds and depends on neither the file, the gateway nor the parser |
| `GeminiService.SheetFixtureFacts` | services/geminiService.ts:75-90 | the fixture is 23 to 25 with four scorers a side, each with at least one goal; the home goals add up to 23 but the away goals only to 19 |
| `GeminiService.SideConcat` | services/geminiService.ts:80-89 | per-side scorer counts and goal sums add up over a concatenation |
| `GeminiService.MalformedSheetSkipsGateway` | services/geminiService.ts:95-99 | with a key, a string that no split matches fails with the invalid-format error whatever the gateway would answer |
| `GeminiService.SheetErrorPropagates` | services/geminiService.ts:151-154 | a gateway error during sheet analysis reaches the caller unchanged |
| `GeminiService.GenerateHandballImage` | services/geminiService.ts:157-194 | without a key it throws; a gateway error is re-thrown; otherwise success exactly when some part holds an image, with the first image's URI, and "No image generated." otherwise |
| `GeminiService.ErrorsPropagate` | services/geminiService.ts:190-193 | with a failing gateway, article, image and (well-formed) sheet requests all fail with the gateway's error |
| `SrcGeminiService.GenerateNewsArticle` | src/services/geminiService.ts:5-48 | the function is total: the fixed demo article without a key, the parsed reply, or the fixed error article on any failure |
| `SrcGeminiService.DemoArticleIgnoresInput` | src/services/geminiService.ts:6-12 | without a key the article depends on neither the topic, the details nor the gateway |
| `SrcGeminiService.GenerateMatchStrategy` | src/services/geminiService.ts:50-70 | the function is total: fixed demo advice without a key, the reply text, or fixed texts for an empty reply and for an error |
| `SrcGeminiService.AnalyzeMatchSheet` | src/services/geminiService.ts:73-128 | the same error policy as the imported copy: a malformed upload and every gateway, empty-text or JSON failure is thrown |
| `SrcGeminiService.SheetFixtureFacts` | src/services/geminiService.ts:76-88 | the fixture is 23 to 25 with five scorers, three home then two away, each with at least one goal |
| `SrcGeminiService.GenerateHandballImage` | src/services/geminiService.ts:130-166 | the function is total: the fixed photograph without a key, on a gateway error and when no part holds an image; otherwise the first image's data URI |
| `ServiceCopies.NewsCopiesAgree` | src/services/geminiService.ts:40-47 | with a key, the lenient article is the imported copy's result when that succeeds and the error article when it throws |
| `ServiceCopies.StrategyCopiesAgree` | src/services/geminiService.ts:50-70 | with a key, both copies give the same advice |
| `ServiceCopies.ImageCopiesAgree` | src/services/geminiService.ts:153-165 | given the same reply, the lenient image is the imported copy's image or the fixed photograph where that copy throws |
| `ServiceCopies.MalformedSheetCopiesAgree` | src/services/geminiService.ts:92-96 | both copies refuse a malformed upload with the same error |
| `Filters.FilteredTeams` | App.tsx:163-173 | a team is listed exactly when it belongs to the selected federation (any for "all") and, unless the gender check is switched off, has the selected gender |
| `Filters.FilteredTeamsInOrder` | App.tsx:163-173 | the two filtering stages equal one filter by both conditions, and the list keeps the teams' order |
| `Filters.FindTeam` | App.tsx:182 | `teams.find` returns the first team with the id, and nothing when no team has it |
| `Filters.FilteredMatches` | App.tsx:175-186 | a match is listed exactly when it is in the selected federation and the first team with its home id has the selected gender, and it is listed as many times as the fixture list holds it |
| `Filters.FilteredMatchesInOrder` | App.tsx:175-186 | the list keeps the matches' order, and a match whose home team is unknown is never listed |
| `Filters.FilteredNews` | App.tsx:188-191 | "all" shows every article; otherwise an article is shown exactly when it has no federation or the selected one, as many times as the list holds it and in order |
| `Filters.TeamIds` | App.tsx:195 | an id is in the list exactly when some team has it |
| `Filters.FilteredPlayers` | App.tsx:193-197 | a player is listed exactly when some listed team has the player's team id, as many times as the roster holds it and in order |
| `Rankings.Standings` | App.tsx:646 | the standings hold exactly the listed teams, as a permutation, best points first |
| `Rankings.StandingsStable` | App.tsx:646 | teams level on points keep their list order |
| `Rankings.TopScorers` | App.tsx:684 | the scorers table holds exactly the listed players, as a permutation, most goals first |
| `Rankings.TopScorersStable` | App.tsx:684 | players level on goals keep their list order |
| `PlayerAdmin.Edited` | App.tsx:314-323 | an edit rewrites name, surname, dorsal, position, DNI, member number and photo, and keeps id, team and goals |
| `PlayerAdmin.Created` | App.tsx:329-340 | a new player has the fresh id, the selected team and no goals, and is what an edit with the same form would produce |
| `PlayerAdmin.SavePlayer` | App.tsx:306-346 | nothing without a selected team; an edit keeps every id, team and goal count, rewrites the edited player's name, surname, dorsal (`parseInt \|\| 0`), position, dni, member number and photo from the form and leaves every other player as it was; otherwise exactly the created player is appended to the selected team with 0 goals; the form is reset |
| `PlayerAdmin.FormOf` | App.tsx:349-357 | the form shows the player's fields, its dorsal text parses back to the dorsal, and a missing dni, member number or photo shows as empty text (`\|\| ''`) |
| `PlayerAdmin.EditPlayerClick` | App.tsx:348-359 | the roster is unchanged and the clicked player is under edit |
| `PlayerAdmin.DeletePlayer` | App.tsx:361-369 | once confirmed, every player with the id leaves and every other player keeps its multiplicity and order; an edit of that player is abandoned and the form reset |
| `PlayerAdmin.EditThenSaveFillsMissing` | App.tsx:306-357 | opening any player and saving the untouched form changes only its missing dni, member number or photo, which come back as empty text |
| `PlayerAdmin.EditThenSaveUnchanged` | App.tsx:306-359 | opening a player and saving the untouched form leaves the roster unchanged |
| `PlayerAdmin.EmptyIdEditAppends` | App.tsx:310 | a player whose id is empty cannot be edited: saving appends a new player instead |
| `PlayerAdmin.CreateThenDelete` | App.tsx:306-369 | deleting a freshly created player restores the roster |
| `PlayerAdmin.SaveKeepsIdsUnique` | App.tsx:328-341 | a save keeps player ids distinct when the new id is fresh |
| `TeamAdmin.WithStats` | App.tsx:406 | writing the form's table statistics over a team's (part of the spread) changes nothing else |
| `TeamAdmin.FormOf` | App.tsx:386 | the form opened on a team carries every field of the team: id, name, city, category, federation, gender, logo and statistics |
| `TeamAdmin.OpenTeamModal` | App.tsx:384-398 | the dialog opens on the team, or on the blank form: no id or statistics, empty name and city, Mayores of federation f2, Masculino, the default logo |
| `TeamAdmin.Overlay` | App.tsx:406 | `{ ...t, ...form }`: the form's fields win, and absent optional fields keep the team's values |
| `TeamAdmin.NewTeam` | App.tsx:409-419 | a new team has the fresh id, the form's name, city, category, federation and logo, gender defaulting to Masculino and all statistics zero |
| `TeamAdmin.SaveTeam` | App.tsx:400-423 | an empty name changes nothing; a form with an id rewrites that team keeping its id, taking name, city, category, federation, gender, logo and statistics from the form where given, and leaves every other team as it was; otherwise exactly the new team is appended with zero statistics; the dialog closes after a save |
| `TeamAdmin.OpenThenSaveUnchanged` | App.tsx:384-423 | opening a team and saving the untouched form leaves the teams unchanged |
| `TeamAdmin.SaveUnknownIdUnchanged` | App.tsx:404-406 | saving an edit whose id no team carries changes no team |
| `TeamAdmin.SaveEditTwice` | App.tsx:400-423 | submitting the same edit twice leaves the teams as one submission does |
| `TeamAdmin.BlankFormAddsDefaultTeam` | App.tsx:384-423 | naming the form that `openTeamModal()` opens and saving adds a Masculino team of federation f2 and category Mayores with the default logo |
| `TeamAdmin.SaveKeepsIdsUnique` | App.tsx:400-423 | a save keeps team ids distinct when the new id is fresh, because an edit keeps every id |
| `TeamAdmin.EmptyIdTeamSavedAsNew` | App.tsx:404 | a team whose id is empty is saved as a new copy with zeroed statistics |
| `MatchAdmin.BlankForm` | App.tsx:442-451 | a blank fixture is dated today at 18:00, scheduled, 0 - 0, Mayores of federation f2, without teams or location |
| `MatchAdmin.BlankFormAddsDefaultMatch` | App.tsx:438-473 | choosing both teams on the form that `openMatchModal()` opens and saving appends a 0 - 0 scheduled Mayores match of f2 at 18:00 today, with the fresh id |
| `MatchAdmin.SaveKeepsIdsUnique` | App.tsx:456-473 | a save keeps match ids distinct when the new id is fresh, because an edit keeps every id |
| `MatchAdmin.FormOf` | App.tsx:440 | the form opened on a match carries every field of the match: id, both teams, date, time, scores, status, location, federation and category |
| `MatchAdmin.OpenMatchModal` | App.tsx:438-454 | the dialog opens on the match, or on the blank form: no id or teams, dated today at 18:00, scheduled, 0 - 0, Mayores of f2, no location |
| `MatchAdmin.Overlay` | App.tsx:464 | `{ ...m, ...form }`: the form's fields win, and absent scores keep the match's |
| `MatchAdmin.NewMatch` | App.tsx:466-469 | a new match has the fresh id and every other field from the form |
| `MatchAdmin.SaveMatch` | App.tsx:456-473 | without both teams nothing changes; a form with an id rewrites that match's teams, date, time, scores (where given), status, location, federation and category and leaves every other match as it was; otherwise exactly the new match is appended; the dialog closes after a save |
| `MatchAdmin.SaveNeedsBothTeams` | App.tsx:458-461 | the fixture list changes only when both teams are chosen, and a new match with both teams always changes it |
| `MatchAdmin.SameTeamTwiceAccepted` | App.tsx:438-473 | a team drawn against itself on the form that `openMatchModal()` opens is accepted |
| `MatchAdmin.OpenThenSaveUnchanged` | App.tsx:438-473 | opening a match and saving the untouched form leaves the fixtures unchanged |
| `MatchAdmin.SaveUnknownIdUnchanged` | App.tsx:463-464 | saving an edit whose id no match carries changes no match |
| `MatchAdmin.DeleteMatch` | App.tsx:475-479 | once confirmed, every match with the id leaves and every other match keeps its multiplicity and order |
| `MatchAdmin.CreateThenDelete` | App.tsx:466-479 | deleting a freshly created match restores the fixtures |
| `SheetCheck.OnRoster` | App.tsx:294-297 | `roster.some(...)` holds exactly when some roster player resembles the scorer |
| `SheetCheck.MatchCount` | App.tsx:293-298 | the count is the number of sheet scorers that resemble some roster player, so at most the sheet's length and zero against an empty roster |
| `SheetCheck.ApplyAnalysis` | App.tsx:287-302 | no summary without an analysis; otherwise the analysis' score, its number of scorers and the number of those that resemble a roster player |
| `SheetCheck.EmptySurnameMatchesAll` | App.tsx:296 | a roster player with an empty surname makes every scorer count as recognised |
| `SheetCheck.MatchCountMonotone` | App.tsx:293-298 | a larger roster recognises at least as many scorers |
| `NewsDesk.Stored` | App.tsx:237-246 | the stored article carries the generated title, summary and text, the given id and date, the generic image and author, and no federation when "all" is selected |
| `NewsDesk.PublishGenerated` | App.tsx:233-255 | a failed generation leaves the news unchanged; a success puts exactly the stored article in front of the old list |
| `NewsDesk.PublishedHeadsFeed` | App.tsx:245-247 | the published article heads the news shown for the federation it was published under |
| `NewsDesk.PublishWithoutKey` | App.tsx:236 | without a key publishing never fails and the article mentions the requested topic |

## Left out

- Rendering: JSX, views, navigation, `components/Layout.tsx` and the alert texts are not modelled.
- Login, logout and `localStorage` are outside the modelled core.
- Asynchrony: the `async` calls, the 1.5-second delay before a fixture and the loading flags are left out. Each call is modelled as one function from its inputs and the gateway's reply.
- The network client is the parameter `gw`. Only the first candidate's parts and the `text` accessor of a reply are modelled.
- `JSON.parse` is the parameter `parse`, typed to the record each caller expects. Neither copy checks the shape of the parsed value.
- `SheetCheck.ApplyAnalysis`: an analysis without a `players` list is not modelled. The typed extraction always has one. In the code, `players?.filter` then gives an `undefined` match count and `players?.length || 0` gives 0 scorers (App.tsx:293, :300).
- Logging: the `console.error` and `console.warn` calls are left out (services/geminiService.ts:43, :65, :73, :152, :191; src/services/geminiService.ts:41, :67, :75, :125, :163). They do not change any result.
- The prompts' fixed instruction text is kept in shortened form. Only the parts that carry inputs (topic, details, team names) are exact.
- File reading (`FileReader`), photo and logo uploads, and the hero-image handler are left out. They only move strings between the service and the form state.
- `Text.Lower`: lower-cases ASCII letters only, because `toLowerCase` follows the full Unicode case tables.
- `Text.ParseIntOr0`: does not skip leading whitespace and does not read the `0x`/`0X` prefix, which `parseInt` reads as hexadecimal (`parseInt("0x1A")` is 26; the model gives 0). It returns the exact value of a long digit string, where `parseInt` rounds above 2^53. Dorsals are typed into a number field (App.tsx:1151).
- `Text.ParseIntOfIntToString`: holds for every integer in the model, but in JavaScript only below 2^53 in magnitude. `toString` prints 1e21 and above in exponent form (`"1e+21"` reads back as 1) and larger digit strings lose precision. In the program, `PlayerAdmin.EditThenSaveUnchanged` therefore holds only for dorsals below 2^53.
- `Rankings.Standings`: compares points as unbounded integers, whereas the comparator subtracts JavaScript numbers, which can lose precision beyond 2^53.
- `Rankings.TopScorers`: compares goals as unbounded integers, whereas `b.goals - a.goals` (App.tsx:684) subtracts JavaScript numbers, which can lose precision beyond 2^53.
- `SheetCheck.ApplyAnalysis`: the reset `setAnalysisResult(null)` (App.tsx:301) is UI state and is not modelled, so applying twice in the model gives the summary twice, where the program shows it once.
- `NewsDesk.PublishGenerated`: clearing the topic field in `finally` (App.tsx:253), after success and failure alike, is UI state and is not modelled.
- Form states: fields that the modals always set are plain values. A form where a field was explicitly set to `undefined` is not modelled.
- The cancel-edit button of the player form resets the same state as a delete of the edited player (App.tsx:1173). It is not modelled separately.
- The `MOCK_*` data of `constants.ts` is not part of this model. All operations take the lists as inputs.

=== FILE: analysis.dfy ===
/**
 * Applying an analysed match sheet (App.tsx `handleApplyAnalysis`): the summary shown to the
 * administrator, which counts how many extracted scorers resemble a player of the roster.
 */
module SheetCheck {
  import opened Wrappers
  import opened Seqs
  import opened Text
  import opened Types
  import opened Gateway

  /**
   * A roster player resembles a scorer when the scorer's name occurs in the player's first
   * name, or the player's surname occurs in the scorer's name, both compared in lower case.
   */
  predicate Resembles(existing: Player, s: Scorer) {
    Includes(Lower(existing.name), Lower(s.name)) || Includes(Lower(s.name), Lower(existing.surname))
  }

  /** `roster.some(...)`: some roster player resembles the scorer. */
  function OnRoster(roster: seq<Player>, s: Scorer): (b: bool)
    ensures b <==> exists i :: 0 <= i < |roster| && Resembles(roster[i], s)
  {
    if roster == [] then false
    else Resembles(roster[0], s) || OnRoster(roster[1..], s)
  }

  /** `sheet.filter(...).length`: the number of extracted scorers that resemble some roster player. */
  function MatchCount(sheet: seq<Scorer>, roster: seq<Player>): (n: nat)
    ensures n == |Filter(sheet, (s: Scorer) => OnRoster(roster, s))|
    ensures n <= |sheet|
    ensures roster == [] ==> n == 0
  {
    if sheet == [] then 0
    else (if OnRoster(roster, sheet[0]) then 1 else 0) + MatchCount(sheet[1..], roster)
  }

  /** What the confirmation shows: the score, the number of scorers and how many are known. */
  datatype Summary = Summary(homeScore: int, awayScore: int, scorers: nat, matched: nat)

  /** `handleApplyAnalysis`: nothing without an analysis; otherwise its summary. */
  function ApplyAnalysis(analysis: Option<Extraction>, roster: seq<Player>): (r: Option<Summary>)
    ensures r.None? <==> analysis.None?
    ensures r.Some? ==> r.value.homeScore == analysis.value.homeScore && r.value.awayScore == analysis.value.awayScore
    ensures r.Some? ==> r.value.scorers == |analysis.value.players|
    ensures r.Some? ==> r.value.matched == |Filter(analysis.value.players, (s: Scorer) => OnRoster(roster, s))|
    ensures r.Some? ==> r.value.matched <= r.value.scorers
  {
    if analysis.None? then None
    else
      var e := analysis.value;
      Some(Summary(e.homeScore, e.awayScore, |e.players|, MatchCount(e.players, roster)))
  }

  /** A roster player with an empty surname resembles every scorer, so every scorer counts. */
  lemma {:induction false} EmptySurnameMatchesAll(sheet: seq<Scorer>, roster: seq<Player>, i: int)
    requires 0 <= i < |roster| && roster[i].surname == ""
    ensures MatchCount(sheet, roster) == |sheet|
    decreases |sheet|
  {
    if sheet != [] {
      assert Lower(roster[i].surname) == "";
      IncludesEmpty(Lower(sheet[0].name));
      assert Resembles(roster[i], sheet[0]);
      EmptySurnameMatchesAll(sheet[1..], roster, i);
    }
  }

  /** Every scorer recognised against a roster is recognised against a larger roster. */
  lemma {:induction false} MatchCountMonotone(sheet: seq<Scorer>, roster: seq<Player>, more: seq<Player>)
    ensures MatchCount(sheet, roster) <= MatchCount(sheet, roster + more)
    decreases |sheet|
  {
    if sheet != [] {
      MatchCountMonotone(sheet[1..], roster, more);
      var s := sheet[0];
      if OnRoster(roster, s) {
        var i :| 0 <= i < |roster| && Resembles(roster[i], s);
        assert (roster + more)[i] == roster[i];
      }
    }
  }
}

=== FILE: copies.dfy ===
/**
 * How the two copies of the service relate once a key is configured: the lenient copy
 * (src/services/geminiService.ts) returns what the strict one (services/geminiService.ts)
 * returns whenever the strict one succeeds, and its fixed fallback exactly when the strict one
 * throws.
 */
module ServiceCopies {
  import opened Wrappers
  import opened Gateway
  import DataUri
  import Strict = GeminiService
  import Lenient = SrcGeminiService

  /** Both copies send the same article request; the lenient one swallows what the strict one throws. */
  lemma NewsCopiesAgree(key: Option<string>, topic: string, details: Option<string>,
                        gw: Request -> Reply, parse: string -> Option<Article>)
    requires HasKey(key)
    ensures var strict := Strict.GenerateNewsArticle(key, topic, details, gw, parse);
            var lenient := Lenient.GenerateNewsArticle(key, topic, details, gw, parse);
            && (strict.Success? ==> lenient == strict.value)
            && (strict.Failure? ==> lenient == Lenient.ErrorArticle)
  {
    assert Strict.ArticleRequest(topic, details) == Lenient.ArticleRequest(topic, details);
  }

  /** The strategy functions agree whenever a key is configured. */
  lemma StrategyCopiesAgree(key: Option<string>, teamName: string, opponentName: string, gw: Request -> Reply)
    requires HasKey(key)
    ensures Strict.GenerateMatchStrategy(key, teamName, opponentName, gw)
         == Lenient.GenerateMatchStrategy(key, teamName, opponentName, gw)
  {
    assert Strict.StrategyRequest(teamName, opponentName) == Lenient.StrategyRequest(teamName, opponentName);
  }

  /**
   * The image requests differ only in wording; given the same reply to both, the lenient copy
   * returns the strict copy's image, or its fixed photograph where the strict copy throws.
   */
  lemma ImageCopiesAgree(key: Option<string>, gw: Request -> Reply)
    requires HasKey(key)
    requires gw(Strict.ImageRequest()) == gw(Lenient.ImageRequest())
    ensures var strict := Strict.GenerateHandballImage(key, gw);
            var lenient := Lenient.GenerateHandballImage(key, gw);
            && (strict.Success? ==> lenient == strict.value)
            && (strict.Failure? ==> lenient == Lenient.FallbackImageUrl)
  {
  }

  /** Both copies refuse the same malformed uploads with the same error, before any request. */
  lemma MalformedSheetCopiesAgree(key: Option<string>, file: string, gw: Request -> Reply,
                                  parse: string -> Option<Extraction>)
    requires HasKey(key) && DataUri.Split(file).None?
    ensures Strict.AnalyzeMatchSheet(key, file, gw, parse) == Lenient.AnalyzeMatchSheet(key, file, gw, parse)
  {
  }
}

=== FILE: datauri.dfy ===
/**
 * Splitting a data URI the way `s.match(/^data:(.+);base64,(.+)$/)` does: the media type and
 * the payload are both non-empty, neither spans a line terminator (`.` does not match one),
 * and the first group is greedy, so it runs up to the LAST ";base64," that still leaves a
 * non-empty payload behind it. This is the base64 form of the `data:` URL of section 3 of
 * RFC 2397 with the media type made mandatory and without percent-decoding.
 */
module DataUri {
  import opened Wrappers

  const Scheme := "data:"
  const Marker := ";base64,"

  /** The characters JavaScript's `.` refuses to match. */
  predicate LineTerminator(c: char) {
    c == '\n' || c == '\r' || c == '\U{2028}' || c == '\U{2029}'
  }

  predicate SingleLine(s: string) {
    forall i :: 0 <= i < |s| ==> !LineTerminator(s[i])
  }

  /** ";base64," occurs in `s` at position `j`. */
  predicate MarkerAt(s: string, j: int) {
    0 <= j && j + |Marker| <= |s| && s[j..j + |Marker|] == Marker
  }

  /** The regular expression matches `s` with `mime` as group 1 and `data` as group 2. */
  ghost predicate Matches(s: string, mime: string, data: string) {
    && |mime| > 0
    && |data| > 0
    && SingleLine(mime)
    && SingleLine(data)
    && s == Scheme + mime + Marker + data
  }

  /** The rightmost marker at a position in `1..k`; `k` is chosen so the payload behind it is non-empty. */
  function LastMarker(r: string, k: int): (res: Option<nat>)
    requires k + |Marker| < |r|
    ensures res.Some? ==> 1 <= res.value <= k && MarkerAt(r, res.value)
    ensures res.Some? ==> forall j :: res.value < j <= k ==> !MarkerAt(r, j)
    ensures res.None? ==> forall j :: 1 <= j <= k ==> !MarkerAt(r, j)
    decreases k
  {
    if k < 1 then None
    else if r[k..k + |Marker|] == Marker then Some(k)
    else LastMarker(r, k - 1)
  }

  /** Groups 1 and 2 of the match, or None when the pattern does not match. */
  function Split(s: string): (res: Option<(string, string)>)
    ensures res.Some? ==> Matches(s, res.value.0, res.value.1)
    ensures res.Some? ==> forall m, d :: Matches(s, m, d) ==> |m| <= |res.value.0|
    ensures res.None? ==> forall m, d :: !Matches(s, m, d)
  {
    MatchShape(s);
    if |s| < |Scheme| || s[..|Scheme|] != Scheme then None
    else
      var rest := s[|Scheme|..];
      if !SingleLine(rest) then None
      else
        match LastMarker(rest, |rest| - |Marker| - 1)
        case None => None
        case Some(k) =>
          var mime, data := rest[..k], rest[k + |Marker|..];
          assert rest == mime + Marker + data;
          SingleLineParts(rest, k);
          Some((mime, data))
  }

  /** What any match tells about the string: the scheme, a single line, and a marker where group 1 ends. */
  lemma MatchShape(s: string)
    ensures forall m, d :: Matches(s, m, d) ==>
      && |Scheme| <= |s|
      && s[..|Scheme|] == Scheme
      && SingleLine(s[|Scheme|..])
      && MarkerAt(s[|Scheme|..], |m|)
      && 1 <= |m| <= |s[|Scheme|..]| - |Marker| - 1
  {
    forall m, d | Matches(s, m, d)
      ensures && |Scheme| <= |s|
              && s[..|Scheme|] == Scheme
              && SingleLine(s[|Scheme|..])
              && MarkerAt(s[|Scheme|..], |m|)
              && 1 <= |m| <= |s[|Scheme|..]| - |Marker| - 1
    {
      var rest := s[|Scheme|..];
      assert rest == m + Marker + d;
      SingleLineConcat(m, d);
      assert rest[|m|..|m| + |Marker|] == Marker;
    }
  }

  /** Cutting a single line around a marker leaves two single lines. */
  lemma SingleLineParts(r: string, k: nat)
    requires SingleLine(r) && k + |Marker| <= |r|
    ensures SingleLine(r[..k]) && SingleLine(r[k + |Marker|..])
  {
    forall i | 0 <= i < k
      ensures !LineTerminator(r[..k][i])
    {
      assert r[..k][i] == r[i];
    }
    var data := r[k + |Marker|..];
    forall i | 0 <= i < |data|
      ensures !LineTerminator(data[i])
    {
      assert data[i] == r[k + |Marker| + i];
    }
  }

  /** A match spans a single line. */
  lemma SingleLineConcat(m: string, d: string)
    requires SingleLine(m) && SingleLine(d)
    ensures SingleLine(m + Marker + d)
  {
    var r := m + Marker + d;
    forall i | 0 <= i < |r|
      ensures !LineTerminator(r[i])
    {
      if i < |m| {
        assert r[i] == m[i];
      } else if i < |m| + |Marker| {
        assert r[i] == Marker[i - |m|];
      } else {
        assert r[i] == d[i - |m| - |Marker|];
      }
    }
  }

  /** ";base64," occurs nowhere in `s`. */
  predicate NoMarker(s: string) {
    forall j | 0 <= j <= |s| :: !MarkerAt(s, j)
  }

  /**
   * Building a data URI and splitting it again gives back the media type and the payload,
   * provided the payload cannot be mistaken for the end of a longer media type.
   */
  lemma SplitRoundTrip(mime: string, data: string)
    requires |mime| > 0 && |data| > 0
    requires SingleLine(mime) && SingleLine(data)
    requires NoMarker(data)
    ensures Split(Scheme + mime + Marker + data) == Some((mime, data))
  {
    var s := Scheme + mime + Marker + data;
    assert Matches(s, mime, data);
    var res := Split(s);
    LongerGroupImpossible(mime, data, res.value.0, res.value.1);
  }

  /** No match of a built URI has a longer media type than the one it was built from. */
  lemma LongerGroupImpossible(mime: string, data: string, m: string, d: string)
    requires NoMarker(data)
    requires Matches(Scheme + mime + Marker + data, m, d)
    requires |mime| <= |m|
    ensures m == mime && d == data
  {
    var s := Scheme + mime + Marker + data;
    var rest := mime + Marker + data;
    assert s[|Scheme|..] == rest;
    assert s[|Scheme|..] == m + Marker + d;
    assert MarkerAt(rest, |m|);
    LastMarkerOfBuilt(mime, data, |m|);
    assert m == rest[..|m|];
    assert mime == rest[..|mime|];
  }

  /** In `mime + ";base64," + data` with no marker in `data`, no marker starts after the built one. */
  lemma LastMarkerOfBuilt(mime: string, data: string, p: int)
    requires NoMarker(data)
    requires MarkerAt(mime + Marker + data, p) && |mime| <= p
    ensures p == |mime|
  {
    var rest := mime + Marker + data;
    assert rest[p] == ';';
    assert forall i :: 0 < i < |Marker| ==> Marker[i] != ';';
    assert rest[|mime| + |Marker|..] == data;
    forall q | |mime| + |Marker| <= q && MarkerAt(rest, q)
      ensures MarkerAt(data, q - |mime| - |Marker|)
    {
      var j := q - |mime| - |Marker|;
      assert rest[q..q + |Marker|] == rest[|mime| + |Marker|..][j..j + |Marker|];
    }
    assert p < |mime| + |Marker|;
  }

  /** The accepted example of the match-sheet upload: "data:image/png;base64,QUJD". */
  lemma SplitAcceptsPng()
    ensures Split("data:image/png;base64,QUJD") == Some(("image/png", "QUJD"))
  {
    var mime, payload := "image/png", "QUJD";
    assert "data:image/png;base64,QUJD" == Scheme + mime + Marker + payload;
    assert SingleLine(mime) by {
      forall i | 0 <= i < |mime|
        ensures !LineTerminator(mime[i])
      {
      }
    }
    assert SingleLine(payload);
    assert NoMarker(payload);
    SplitRoundTrip(mime, payload);
  }

  /** A string that does not start with the scheme is refused. */
  lemma SplitRejectsNoScheme()
    ensures Split("not-a-data-uri") == None
  {
    assert "not-a-data-uri"[0] != Scheme[0];
  }

  /** An empty media type is refused. */
  lemma SplitRejectsEmptyMime()
    ensures Split("data:;base64,QUJD") == None
  {
    var s := "data:;base64,QUJD";
    assert s[..5] == Scheme;
    var r := s[5..];
    assert r == ";base64,QUJD";
    forall j | 1 <= j <= 3
      ensures !MarkerAt(r, j)
    {
      assert r[j..j + |Marker|][0] == r[j] != ';';
    }
  }

  /** An empty payload is refused. */
  lemma SplitRejectsEmptyData()
    ensures Split("data:image/png;base64,") == None
  {
    var s := "data:image/png;base64,";
    assert s[..5] == Scheme;
    var r := s[5..];
    assert r == "image/png;base64,";
    forall j | 1 <= j <= 8
      ensures !MarkerAt(r, j)
    {
      assert r[j..j + |Marker|][0] == r[j] != ';';
    }
  }
}

=== FILE: filters.dfy ===
/**
 * The public views' selections (App.tsx `getFilteredTeams`, `getFilteredMatches`,
 * `getFilteredNews`, `getFilteredPlayers`). The selected federation is a federation id or the
 * sentinel "all"; the selected gender is one of the two genders.
 */
module Filters {
  import opened Wrappers
  import opened Seqs
  import opened Types

  const All := "all"

  /** The federation selection admits a record of federation `fed`. */
  predicate FederationShown(selected: string, fed: string) {
    selected == All || fed == selected
  }

  /**
   * A team is listed: its federation is selected, and its gender is the selected one unless the
   * caller passed `overrideGender === false`.
   */
  predicate TeamShown(t: Team, selected: string, gender: Gender, overrideGender: Option<bool>) {
    && FederationShown(selected, t.federationId)
    && (overrideGender == Some(false) || t.gender == gender)
  }

  function InFederation(selected: string): Team -> bool {
    (t: Team) => t.federationId == selected
  }

  function OfGender(gender: Gender): Team -> bool {
    (t: Team) => t.gender == gender
  }

  function Shown(selected: string, gender: Gender, overrideGender: Option<bool>): Team -> bool {
    (t: Team) => TeamShown(t, selected, gender, overrideGender)
  }

  /** `getFilteredTeams(overrideGender)`: the federation filter, then the gender filter. */
  function FilteredTeams(teams: seq<Team>, selected: string, gender: Gender, overrideGender: Option<bool>): (r: seq<Team>)
    ensures forall t :: t in r <==> t in teams && TeamShown(t, selected, gender, overrideGender)
  {
    var byFederation := if selected != All then Filter(teams, InFederation(selected)) else teams;
    if overrideGender == Some(false) then byFederation else Filter(byFederation, OfGender(gender))
  }

  /**
   * The two filters in a row are one order-preserving filter by `TeamShown`: the listed teams
   * are exactly the shown ones, in their original order, each as often as it occurs.
   */
  lemma {:induction false} FilteredTeamsInOrder(teams: seq<Team>, selected: string, gender: Gender, overrideGender: Option<bool>)
    ensures FilteredTeams(teams, selected, gender, overrideGender) == Filter(teams, Shown(selected, gender, overrideGender))
    ensures IsSubsequence(FilteredTeams(teams, selected, gender, overrideGender), teams)
  {
    var shown := Shown(selected, gender, overrideGender);
    if selected != All {
      if overrideGender == Some(false) {
        assert forall t :: InFederation(selected)(t) == shown(t);
        FilterSamePredicate(teams, InFederation(selected), shown);
      } else {
        BothFilters(teams, selected, gender, overrideGender);
      }
    } else {
      if overrideGender == Some(false) {
        assert forall t :: shown(t);
        FilterKeepsAll(teams, shown);
      } else {
        assert forall t :: OfGender(gender)(t) == shown(t);
        FilterSamePredicate(teams, OfGender(gender), shown);
      }
    }
    FilterIsSubsequence(teams, shown);
  }

  lemma BothFilters(teams: seq<Team>, selected: string, gender: Gender, overrideGender: Option<bool>)
    requires selected != All && overrideGender != Some(false)
    ensures Filter(Filter(teams, InFederation(selected)), OfGender(gender)) == Filter(teams, Shown(selected, gender, overrideGender))
  {
    var both := (x: Team) => InFederation(selected)(x) && OfGender(gender)(x);
    FilterTwice(teams, InFederation(selected), OfGender(gender));
    assert forall t :: both(t) == Shown(selected, gender, overrideGender)(t);
    FilterSamePredicate(teams, both, Shown(selected, gender, overrideGender));
  }

  /** Position `i` holds the first team of `teams` with id `id` (what `teams.find` returns). */
  predicate FirstWithId(teams: seq<Team>, id: string, i: int) {
    && 0 <= i < |teams|
    && teams[i].id == id
    && forall j :: 0 <= j < i ==> teams[j].id != id
  }

  /** `teams.find(t => t.id === id)`. */
  function FindTeam(teams: seq<Team>, id: string): (r: Option<Team>)
    ensures r.None? <==> forall i :: 0 <= i < |teams| ==> teams[i].id != id
    ensures r.Some? ==> exists i :: FirstWithId(teams, id, i) && r.value == teams[i]
    decreases |teams|
  {
    if |teams| == 0 then None
    else if teams[0].id == id then
      assert FirstWithId(teams, id, 0);
      Some(teams[0])
    else
      var r := FindTeam(teams[1..], id);
      assert forall i :: 1 <= i < |teams| ==> teams[i] == teams[1..][i - 1];
      assert r.Some? ==> exists i :: FirstWithId(teams, id, i) && r.value == teams[i] by {
        if r.Some? {
          var k :| FirstWithId(teams[1..], id, k) && r.value == teams[1..][k];
          assert FirstWithId(teams, id, k + 1);
        }
      }
      r
  }

  /** `home?.gender === selectedGender` for the match's home team. */
  function HomeOfGender(teams: seq<Team>, gender: Gender): Match -> bool {
    (m: Match) => var home := FindTeam(teams, m.homeTeamId); home.Some? && home.value.gender == gender
  }

  function MatchInFederation(selected: string): Match -> bool {
    (m: Match) => m.federationId == selected
  }

  /** `getFilteredMatches()`: the federation filter, then the home team's gender. */
  function FilteredMatches(matches: seq<Match>, teams: seq<Team>, selected: string, gender: Gender): (r: seq<Match>)
    ensures forall m :: m in r <==>
      && m in matches
      && FederationShown(selected, m.federationId)
      && exists i :: FirstWithId(teams, m.homeTeamId, i) && teams[i].gender == gender
    ensures forall m :: multiset(r)[m] == (if FederationShown(selected, m.federationId) && HomeOfGender(teams, gender)(m)
                                           then multiset(matches)[m] else 0)
  {
    var byFederation := if selected != All then Filter(matches, MatchInFederation(selected)) else matches;
    assert forall m :: multiset(byFederation)[m] == (if FederationShown(selected, m.federationId)
                                                     then multiset(matches)[m] else 0) by {
      if selected != All {
        FilterMultiplicity(matches, MatchInFederation(selected));
      }
    }
    FilterMultiplicity(byFederation, HomeOfGender(teams, gender));
    Filter(byFederation, HomeOfGender(teams, gender))
  }

  /** The listed matches keep the order of the fixture list, and a match whose home team is unknown is never listed. */
  lemma FilteredMatchesInOrder(matches: seq<Match>, teams: seq<Team>, selected: string, gender: Gender)
    ensures IsSubsequence(FilteredMatches(matches, teams, selected, gender), matches)
    ensures forall m: Match :: (forall i :: 0 <= i < |teams| ==> teams[i].id != m.homeTeamId) ==>
      m !in FilteredMatches(matches, teams, selected, gender)
  {
    if selected != All {
      FilterTwiceIsSubsequence(matches, MatchInFederation(selected), HomeOfGender(teams, gender));
    } else {
      FilterIsSubsequence(matches, HomeOfGender(teams, gender));
    }
  }

  /** `!n.federationId || n.federationId === selectedFederation`. */
  function NewsOf(selected: string): NewsArticle -> bool {
    (n: NewsArticle) => !Truthy(n.federationId) || n.federationId == Some(selected)
  }

  /** `getFilteredNews()`: everything for "all"; otherwise the general news and the selected federation's. */
  function FilteredNews(news: seq<NewsArticle>, selected: string): (r: seq<NewsArticle>)
    ensures selected == All ==> r == news
    ensures forall n :: n in r <==>
      && n in news
      && (selected == All || n.federationId.None? || n.federationId == Some("") || n.federationId == Some(selected))
    ensures IsSubsequence(r, news)
    ensures forall n :: multiset(r)[n] ==
                          (if selected == All || n.federationId.None? || n.federationId == Some("") || n.federationId == Some(selected)
                           then multiset(news)[n] else 0)
  {
    if selected == All then
      IsSubsequenceRefl(news);
      news
    else
      FilterIsSubsequence(news, NewsOf(selected));
      FilterMultiplicity(news, NewsOf(selected));
      Filter(news, NewsOf(selected))
  }

  /** The ids of `teams`, in order (`teams.map(t => t.id)`). */
  function TeamIds(teams: seq<Team>): (ids: seq<string>)
    ensures forall id :: id in ids <==> exists t :: t in teams && t.id == id
  {
    var ids := seq(|teams|, i requires 0 <= i < |teams| => teams[i].id);
    assert forall id :: id in ids ==> exists t :: t in teams && t.id == id by {
      forall id | id in ids
        ensures exists t :: t in teams && t.id == id
      {
        var i :| 0 <= i < |ids| && ids[i] == id;
        assert teams[i] in teams;
      }
    }
    assert forall t :: t in teams ==> t.id in ids by {
      forall t | t in teams
        ensures t.id in ids
      {
        var i :| 0 <= i < |teams| && teams[i] == t;
        assert ids[i] == t.id;
      }
    }
    ids
  }

  function OnTeams(ids: seq<string>): Player -> bool {
    (p: Player) => p.teamId in ids
  }

  /** `getFilteredPlayers()`: the players of the teams the public views list. */
  function FilteredPlayers(players: seq<Player>, teams: seq<Team>, selected: string, gender: Gender): (r: seq<Player>)
    ensures forall p :: p in r <==>
      && p in players
      && exists t :: t in teams && TeamShown(t, selected, gender, None) && t.id == p.teamId
    ensures IsSubsequence(r, players)
    ensures forall p :: multiset(r)[p] ==
                          (if exists t :: t in teams && TeamShown(t, selected, gender, None) && t.id == p.teamId
                           then multiset(players)[p] else 0)
  {
    var ids := TeamIds(FilteredTeams(teams, selected, gender, None));
    FilterIsSubsequence(players, OnTeams(ids));
    FilterMultiplicity(players, OnTeams(ids));
    Filter(players, OnTeams(ids))
  }
}

=== FILE: gateway.dfy ===
/**
 * The boundary with the generative-AI client: the request each service function sends, the
 * reply it may get, the credential probe, the shapes parsed out of replies, and the scan of a
 * reply's content parts for an inline image. The client itself is not modelled; callers pass it
 * in as a function `gw: Request -> Reply`.
 */
module Gateway {
  import opened Wrappers
  import DataUri

  /** `process.env.API_KEY` is set to a non-empty string (an empty key counts as absent). */
  predicate HasKey(env: Option<string>) {
    Truthy(env)
  }

  /** An inline binary attachment, in request or reply. */
  datatype Inline = Inline(mimeType: Option<string>, data: Option<string>)

  /** One content part of a reply; text parts carry no inline data. */
  datatype Part = Part(inlineData: Option<Inline>)

  /** One `generateContent` call: model, optional attachment, prompt and output hints. */
  datatype Request = Request(
    model: string,
    attachment: Option<Inline>,
    prompt: string,
    jsonOutput: bool,
    aspectRatio: Option<string>)

  /**
   * What the call produced: it threw (transport or service error), or it answered with a
   * `text` accessor and the content parts of its first candidate (empty when there is none).
   */
  datatype Reply = Failed(cause: string) | Answered(text: Option<string>, parts: seq<Part>)

  /** What a service function throws. */
  datatype Fault =
    | Thrown(message: string)      // an Error raised by the service code itself
    | GatewayFault(cause: string)  // the client's error, re-thrown unchanged
    | JsonFault                    // JSON.parse refused the reply text

  /** The article shape `{ title, summary, content }`. */
  datatype Article = Article(title: string, summary: string, content: string)

  datatype Side = Home | Away

  /** A scorer listed on a match sheet. */
  datatype Scorer = Scorer(name: string, team: Side, dorsal: int, goals: int)

  /** The match-sheet extraction shape. */
  datatype Extraction = Extraction(
    homeTeam: string,
    awayTeam: string,
    homeScore: int,
    awayScore: int,
    players: seq<Scorer>)

  const TextModel := "gemini-2.5-flash"
  const ImageModel := "gemini-2.5-flash-image"
  const DefaultImageMime := "image/png"

  /**
   * The text path shared by the JSON-returning functions: a thrown call propagates its error,
   * a missing or empty text throws `emptyMessage`, and otherwise the text goes to JSON.parse.
   */
  function ParseReply<T>(reply: Reply, emptyMessage: string, parse: string -> Option<T>): (r: Result<T, Fault>)
    ensures reply.Failed? ==> r == Failure(GatewayFault(reply.cause))
    ensures reply.Answered? && !Truthy(reply.text) ==> r == Failure(Thrown(emptyMessage))
    ensures r.Success? <==> reply.Answered? && Truthy(reply.text) && parse(reply.text.value).Some?
    ensures r.Success? ==> r.value == parse(reply.text.value).value
    ensures reply.Answered? && Truthy(reply.text) && r.Failure? ==> r.error == JsonFault
  {
    match reply
    case Failed(cause) => Failure(GatewayFault(cause))
    case Answered(text, _) =>
      if !Truthy(text) then Failure(Thrown(emptyMessage))
      else
        match parse(text.value)
        case None => Failure(JsonFault)
        case Some(v) => Success(v)
  }

  /** `part.inlineData && part.inlineData.data`: the part carries a non-empty inline payload. */
  predicate HasImage(p: Part) {
    p.inlineData.Some? && Truthy(p.inlineData.value.data)
  }

  /** `part.inlineData.mimeType || 'image/png'`. */
  function ImageMime(p: Part): string
    requires p.inlineData.Some?
  {
    if Truthy(p.inlineData.value.mimeType) then p.inlineData.value.mimeType.value else DefaultImageMime
  }

  /** The data URI returned for an image part. */
  function ImageUri(p: Part): string
    requires HasImage(p)
  {
    DataUri.Scheme + ImageMime(p) + DataUri.Marker + p.inlineData.value.data.value
  }

  /** The data URI of the first part with inline data, scanning the parts in order. */
  function FirstImage(parts: seq<Part>): (r: Option<string>)
    ensures r.None? <==> forall i :: 0 <= i < |parts| ==> !HasImage(parts[i])
    ensures r.Some? ==> exists i :: && 0 <= i < |parts|
                                    && HasImage(parts[i])
                                    && (forall j :: 0 <= j < i ==> !HasImage(parts[j]))
                                    && r.value == ImageUri(parts[i])
    decreases |parts|
  {
    if |parts| == 0 then None
    else if HasImage(parts[0]) then Some(ImageUri(parts[0]))
    else
      var rest := FirstImage(parts[1..]);
      assert forall i :: 1 <= i < |parts| ==> parts[i] == parts[1..][i - 1];
      rest
  }

  /**
   * The image URI is a well-formed data URI: splitting it gives back the media type (image/png
   * when the part names none) and the payload, as long as neither spans a line and the payload
   * holds no ";base64,".
   */
  lemma ImageUriSplits(p: Part)
    requires HasImage(p)
    requires DataUri.SingleLine(ImageMime(p)) && DataUri.SingleLine(p.inlineData.value.data.value)
    requires DataUri.NoMarker(p.inlineData.value.data.value)
    ensures DataUri.Split(ImageUri(p)) == Some((ImageMime(p), p.inlineData.value.data.value))
  {
    DataUri.SplitRoundTrip(ImageMime(p), p.inlineData.value.data.value);
  }

  /** A JPEG part becomes exactly "data:image/jpeg;base64," followed by its payload. */
  lemma JpegPartUri(data: string)
    requires data != ""
    ensures FirstImage([Part(Some(Inline(Some("image/jpeg"), Some(data))))])
         == Some("data:image/jpeg;base64," + data)
  {
    assert DataUri.Scheme + "image/jpeg" + DataUri.Marker == "data:image/jpeg;base64,";
  }

  /** A part without a media type is labelled image/png. */
  lemma UnlabelledPartIsPng(data: string, mime: Option<string>)
    requires data != "" && !Truthy(mime)
    ensures FirstImage([Part(Some(Inline(mime, Some(data))))]) == Some("data:image/png;base64," + data)
  {
    assert DataUri.Scheme + DefaultImageMime + DataUri.Marker == "data:image/png;base64,";
  }
}

=== FILE: gemini_service.dfy ===
/**
 * The service the application imports (services/geminiService.ts). Without a key it answers from
 * fixtures, except for image generation, which refuses; with a key every failure of the call, an
 * empty reply or unparsable JSON is thrown to the caller. Only `generateMatchStrategy` never fails.
 */
module GeminiService {
  import opened Wrappers
  import opened Text
  import opened Gateway
  import DataUri
  import Prompts

  const DemoTitle := "Resumen de la Jornada (Demo)"
  const DemoSummary := "Sin API Key configurada, este es un contenido de ejemplo."
  const DemoContentLead := "Para generar noticias reales con IA, por favor configura tu API KEY en el entorno. Mientras tanto, disfruta de este texto simulado que representa cómo se vería una noticia generada automáticamente sobre "

  const NoNewsText := "No response from AI"
  const NoSheetText := "No response from AI analyzer"
  const InvalidFileText := "Formato de archivo inválido. Se espera una cadena Base64 válida."
  const ImageKeyText := "API Key requerida para generar imágenes."
  const NoImageText := "No image generated."

  const StrategyKeyAdvice := "Configura la API Key para recibir consejos tácticos."
  const StrategyEmptyAdvice := "No se pudo generar la estrategia."
  const StrategyErrorAdvice := "Error al conectar con el asistente."

  /** The demo article: fixed title and summary, and a content sentence that ends with the topic. */
  function DemoArticle(topic: string): Article {
    Article(DemoTitle, DemoSummary, DemoContentLead + topic + ".")
  }

  function ArticleRequest(topic: string, matchDetails: Option<string>): Request {
    Request(TextModel, None, Prompts.ArticlePrompt(topic, matchDetails), true, None)
  }

  /** `generateNewsArticle(topic, matchDetails)`. */
  function GenerateNewsArticle(
    key: Option<string>, topic: string, matchDetails: Option<string>,
    gw: Request -> Reply, parse: string -> Option<Article>): (r: Result<Article, Fault>)
    ensures !HasKey(key) ==> && r.Success?
                             && r.value.title == DemoTitle
                             && r.value.summary == DemoSummary
                             && Includes(r.value.content, topic)
    ensures HasKey(key) ==>
      var reply := gw(ArticleRequest(topic, matchDetails));
      && (r.Success? <==> reply.Answered? && Truthy(reply.text) && parse(reply.text.value).Some?)
      && (r.Success? ==> r.value == parse(reply.text.value).value)
      && (reply.Failed? ==> r == Failure(GatewayFault(reply.cause)))
      && (reply.Answered? && !Truthy(reply.text) ==> r == Failure(Thrown(NoNewsText)))
  {
    if !HasKey(key) then
      IncludesInConcat(DemoContentLead, topic, ".");
      Success(DemoArticle(topic))
    else
      ParseReply(gw(ArticleRequest(topic, matchDetails)), NoNewsText, parse)
  }

  function StrategyRequest(teamName: string, opponentName: string): Request {
    Request(TextModel, None, Prompts.StrategyPrompt(teamName, opponentName), false, None)
  }

  /** `generateMatchStrategy(teamName, opponentName)`: total; the advice is the reply text when there is one. */
  function GenerateMatchStrategy(
    key: Option<string>, teamName: string, opponentName: string, gw: Request -> Reply): (r: string)
    ensures !HasKey(key) ==> r == StrategyKeyAdvice
    ensures HasKey(key) ==>
      var reply := gw(StrategyRequest(teamName, opponentName));
      && (reply.Failed? ==> r == StrategyErrorAdvice)
      && (reply.Answered? && Truthy(reply.text) ==> r == reply.text.value)
      && (reply.Answered? && !Truthy(reply.text) ==> r == StrategyEmptyAdvice)
  {
    if !HasKey(key) then StrategyKeyAdvice
    else
      match gw(StrategyRequest(teamName, opponentName))
      case Failed(_) => StrategyErrorAdvice
      case Answered(text, _) => if Truthy(text) then text.value else StrategyEmptyAdvice
  }

  /** Apart from the service's own text, the advice is one of three fixed strings. */
  lemma StrategyOutcomes(key: Option<string>, teamName: string, opponentName: string, gw: Request -> Reply)
    ensures var r := GenerateMatchStrategy(key, teamName, opponentName, gw);
            var reply := gw(StrategyRequest(teamName, opponentName));
            || r in {StrategyKeyAdvice, StrategyEmptyAdvice, StrategyErrorAdvice}
            || (HasKey(key) && reply.Answered? && reply.text == Some(r) && r != "")
  {
  }

  const SheetPrompt := "Analiza este documento (planilla de partido de Handball estilo oficial). Columna \"Nº\": dorsal; columna \"Local\" o \"Visitante\": nombre; columna \"G\": goles, donde un guión o un vacío son 0. Devuelve JSON con homeTeam, awayTeam, homeScore, awayScore y players, listando SOLO los jugadores con al menos 1 gol."

  /** The home scorers of the example sheet (Club Comunicaciones B). */
  const HomeScorers := [
    Scorer("Pinto Junior, Severino Roberto", Home, 10, 6),
    Scorer("Flores, Juan Ignacio", Home, 17, 6),
    Scorer("Riadigos, Santiago", Home, 31, 8),
    Scorer("Raimundi Casado, Xoan", Home, 33, 3)]

  /** The away scorers of the example sheet (G.E.I.). */
  const AwayScorers := [
    Scorer("Costa, Federico", Away, 3, 9),
    Scorer("Notaro, Agustin Ezequiel", Away, 20, 4),
    Scorer("Elizari Bellon, Xabier", Away, 51, 4),
    Scorer("Sirtautas, Nicolas Gabriel", Away, 68, 2)]

  /** The example sheet (Club Comunicaciones B 23, G.E.I. 25) returned without a key. */
  const SheetFixture := Extraction("Club Comunicaciones B", "G.E.I.", 23, 25, HomeScorers + AwayScorers)

  function SheetRequest(mimeType: string, data: string): Request {
    Request(TextModel, Some(Inline(Some(mimeType), Some(data))), SheetPrompt, true, None)
  }

  /** `analyzeMatchSheet(fileBase64)`. */
  function AnalyzeMatchSheet(
    key: Option<string>, fileBase64: string,
    gw: Request -> Reply, parse: string -> Option<Extraction>): (r: Result<Extraction, Fault>)
    ensures !HasKey(key) ==> r == Success(SheetFixture)
    ensures HasKey(key) && DataUri.Split(fileBase64).None? ==> r == Failure(Thrown(InvalidFileText))
    ensures HasKey(key) && DataUri.Split(fileBase64).Some? ==>
      var (mime, data) := DataUri.Split(fileBase64).value;
      var reply := gw(SheetRequest(mime, data));
      && DataUri.Matches(fileBase64, mime, data)
      && (r.Success? <==> reply.Answered? && Truthy(reply.text) && parse(reply.text.value).Some?)
      && (r.Success? ==> r.value == parse(reply.text.value).value)
      && (reply.Failed? ==> r == Failure(GatewayFault(reply.cause)))
      && (reply.Answered? && !Truthy(reply.text) ==> r == Failure(Thrown(NoSheetText)))
  {
    if !HasKey(key) then Success(SheetFixture)
    else
      match DataUri.Split(fileBase64)
      case None => Failure(Thrown(InvalidFileText))
      case Some((mime, data)) => ParseReply(gw(SheetRequest(mime, data)), NoSheetText, parse)
  }

  /** Goals scored by one side's listed players. */
  function SideGoals(players: seq<Scorer>, side: Side): int
    decreases |players|
  {
    if |players| == 0 then 0
    else (if players[0].team == side then players[0].goals else 0) + SideGoals(players[1..], side)
  }

  /** Players listed for one side. */
  function SideCount(players: seq<Scorer>, side: Side): nat
    decreases |players|
  {
    if |players| == 0 then 0
    else (if players[0].team == side then 1 else 0) + SideCount(players[1..], side)
  }

  /** Without a key the input is ignored, even a malformed one, and the gateway is never consulted. */
  lemma SheetWithoutKey(key: Option<string>, file1: string, file2: string,
                        gw1: Request -> Reply, gw2: Request -> Reply,
                        parse1: string -> Option<Extraction>, parse2: string -> Option<Extraction>)
    requires !HasKey(key)
    ensures AnalyzeMatchSheet(key, file1, gw1, parse1) == AnalyzeMatchSheet(key, file2, gw2, parse2)
    ensures AnalyzeMatchSheet(key, file1, gw1, parse1).Success?
  {
  }

  /**
   * The example sheet: 23 - 25, four scorers a side, each with a goal. The home scorers' goals add
   * up to the home score; the away scorers' add up to 19 only, short of the away score.
   */
  lemma SheetFixtureFacts()
    ensures SheetFixture.homeScore == 23 && SheetFixture.awayScore == 25
    ensures |SheetFixture.players| == 8
    ensures SideCount(SheetFixture.players, Home) == 4 && SideCount(SheetFixture.players, Away) == 4
    ensures forall i :: 0 <= i < |SheetFixture.players| ==> SheetFixture.players[i].goals >= 1
    ensures SideGoals(SheetFixture.players, Home) == SheetFixture.homeScore
    ensures SideGoals(SheetFixture.players, Away) == 19 < SheetFixture.awayScore
  {
    var h, a := HomeScorers, AwayScorers;
    assert h[1..] == [h[1], h[2], h[3]] && h[2..] == [h[2], h[3]] && h[3..] == [h[3]] && h[4..] == [];
    assert a[1..] == [a[1], a[2], a[3]] && a[2..] == [a[2], a[3]] && a[3..] == [a[3]] && a[4..] == [];
    SideConcat(h, a, Home);
    SideConcat(h, a, Away);
  }

  /** Counting and adding up per side distribute over concatenation. */
  lemma {:induction false} SideConcat(a: seq<Scorer>, b: seq<Scorer>, side: Side)
    ensures SideCount(a + b, side) == SideCount(a, side) + SideCount(b, side)
    ensures SideGoals(a + b, side) == SideGoals(a, side) + SideGoals(b, side)
    decreases |a|
  {
    if |a| > 0 {
      assert (a + b)[1..] == a[1..] + b;
      SideConcat(a[1..], b, side);
    } else {
      assert a + b == b;
    }
  }

  /** A malformed upload fails before any request is made: the gateway cannot change the outcome. */
  lemma MalformedSheetSkipsGateway(key: Option<string>, file: string,
                                   gw1: Request -> Reply, gw2: Request -> Reply,
                                   parse: string -> Option<Extraction>)
    requires HasKey(key) && forall m, d :: !DataUri.Matches(file, m, d)
    ensures AnalyzeMatchSheet(key, file, gw1, parse) == AnalyzeMatchSheet(key, file, gw2, parse)
                                                     == Failure(Thrown(InvalidFileText))
  {
  }

  function ImageRequest(): Request {
    Request(ImageModel, None, Prompts.ImagePromptDetailed, false, Some(Prompts.HeroAspectRatio))
  }

  /** `generateHandballImage()`. */
  function GenerateHandballImage(key: Option<string>, gw: Request -> Reply): (r: Result<string, Fault>)
    ensures !HasKey(key) ==> r == Failure(Thrown(ImageKeyText))
    ensures HasKey(key) && gw(ImageRequest()).Failed? ==> r == Failure(GatewayFault(gw(ImageRequest()).cause))
    ensures HasKey(key) && gw(ImageRequest()).Answered? ==>
      var parts := gw(ImageRequest()).parts;
      && (r.Success? <==> exists i :: 0 <= i < |parts| && HasImage(parts[i]))
      && (r.Success? ==> exists i :: && 0 <= i < |parts| && HasImage(parts[i])
                                     && (forall j :: 0 <= j < i ==> !HasImage(parts[j]))
                                     && r.value == ImageUri(parts[i]))
      && (r.Failure? ==> r.error == Thrown(NoImageText))
  {
    if !HasKey(key) then Failure(Thrown(ImageKeyText))
    else
      match gw(ImageRequest())
      case Failed(cause) => Failure(GatewayFault(cause))
      case Answered(_, parts) =>
        match FirstImage(parts)
        case Some(uri) => Success(uri)
        case None => Failure(Thrown(NoImageText))
  }

  /** With a key, a gateway that throws makes every function except the strategy one fail with its error. */
  lemma ErrorsPropagate(key: Option<string>, topic: string, file: string, gw: Request -> Reply,
                        parseArticle: string -> Option<Article>, parseSheet: string -> Option<Extraction>,
                        cause: string)
    requires HasKey(key) && forall q :: gw(q) == Failed(cause)
    ensures GenerateNewsArticle(key, topic, None, gw, parseArticle) == Failure(GatewayFault(cause))
    ensures GenerateHandballImage(key, gw) == Failure(GatewayFault(cause))
    ensures DataUri.Split(file).Some? ==> AnalyzeMatchSheet(key, file, gw, parseSheet) == Failure(GatewayFault(cause))
  {
    ArticleErrorPropagates(key, topic, gw, parseArticle, cause);
    assert gw(ImageRequest()) == Failed(cause);
    SheetErrorPropagates(key, file, gw, parseSheet, cause);
  }

  lemma ArticleErrorPropagates(key: Option<string>, topic: string, gw: Request -> Reply,
                               parse: string -> Option<Article>, cause: string)
    requires HasKey(key) && gw(ArticleRequest(topic, None)) == Failed(cause)
    ensures GenerateNewsArticle(key, topic, None, gw, parse) == Failure(GatewayFault(cause))
  {
  }

  lemma SheetErrorPropagates(key: Option<string>, file: string, gw: Request -> Reply,
                             parse: string -> Option<Extraction>, cause: string)
    requires HasKey(key) && forall q :: gw(q) == Failed(cause)
    ensures DataUri.Split(file).Some? ==> AnalyzeMatchSheet(key, file, gw, parse) == Failure(GatewayFault(cause))
  {
    if DataUri.Split(file).Some? {
      var parts := DataUri.Split(file).value;
      assert gw(SheetRequest(parts.0, parts.1)) == Failed(cause);
    }
  }
}

=== FILE: matches.dfy ===
/**
 * The fixture dialog of the admin view (App.tsx `openMatchModal`, `handleSaveMatch`,
 * `handleDeleteMatch`). The form is a partial match: a blank form has no teams yet.
 */
module MatchAdmin {
  import opened Wrappers
  import opened Seqs
  import opened Types

  datatype MatchForm = MatchForm(
    id: Option<string>,
    date: string,
    time: string,
    homeTeamId: Option<string>,
    awayTeamId: Option<string>,
    homeScore: Option<int>,
    awayScore: Option<int>,
    federationId: string,
    category: string,
    location: string,
    status: MatchStatus)

  datatype MatchDialog = MatchDialog(matches: seq<Match>, open: bool, form: MatchForm)

  const DefaultTime := "18:00"
  const DefaultCategory := "Mayores"
  const DefaultFederation := "f2"

  /** The blank form for a match on `today` at 18:00: scheduled, 0 - 0, no teams or place chosen, Mayores of f2. */
  function BlankForm(today: string): (f: MatchForm)
    ensures f.id.None? && f.homeTeamId.None? && f.awayTeamId.None?
    ensures f.status == Scheduled && f.homeScore == Some(0) && f.awayScore == Some(0)
    ensures f.date == today && f.time == DefaultTime && f.location == ""
    ensures f.federationId == DefaultFederation && f.category == DefaultCategory
  {
    MatchForm(None, today, DefaultTime, None, None, Some(0), Some(0), DefaultFederation, DefaultCategory, "", Scheduled)
  }

  /** The form opened on an existing match: every field of the match. */
  function FormOf(m: Match): (f: MatchForm)
    ensures f.id == Some(m.id) && f.homeTeamId == Some(m.homeTeamId) && f.awayTeamId == Some(m.awayTeamId)
    ensures f.date == m.date && f.time == m.time && f.homeScore == m.homeScore && f.awayScore == m.awayScore
    ensures f.status == m.status && f.location == m.location
    ensures f.federationId == m.federationId && f.category == m.category
  {
    MatchForm(Some(m.id), m.date, m.time, Some(m.homeTeamId), Some(m.awayTeamId), m.homeScore, m.awayScore,
              m.federationId, m.category, m.location, m.status)
  }

  /** `openMatchModal(match?)`, with the current date given as `today`. */
  function OpenMatchModal(d: MatchDialog, chosen: Option<Match>, today: string): (r: MatchDialog)
    ensures r.matches == d.matches && r.open
    ensures chosen.None? ==> r.form == BlankForm(today)
    ensures chosen.None? ==> r.form.id.None? && r.form.homeTeamId.None? && r.form.awayTeamId.None?
    ensures chosen.None? ==> r.form.date == today && r.form.time == DefaultTime && r.form.location == ""
    ensures chosen.None? ==> r.form.status == Scheduled && r.form.homeScore == Some(0) && r.form.awayScore == Some(0)
    ensures chosen.None? ==> r.form.federationId == DefaultFederation && r.form.category == DefaultCategory
    ensures chosen.Some? ==> r.form.id == Some(chosen.value.id)
  {
    MatchDialog(d.matches, true, if chosen.Some? then FormOf(chosen.value) else BlankForm(today))
  }

  /** Both teams chosen: the condition under which a save does anything. */
  predicate BothTeams(f: MatchForm) {
    Truthy(f.homeTeamId) && Truthy(f.awayTeamId)
  }

  /** `{ ...m, ...form }`: the form's present fields written over the match's. */
  function Overlay(m: Match, f: MatchForm): (u: Match)
    ensures u.id == f.id.GetOr(m.id)
    ensures u.homeTeamId == f.homeTeamId.GetOr(m.homeTeamId) && u.awayTeamId == f.awayTeamId.GetOr(m.awayTeamId)
    ensures u.homeScore == (if f.homeScore.Some? then f.homeScore else m.homeScore)
    ensures u.awayScore == (if f.awayScore.Some? then f.awayScore else m.awayScore)
    ensures u.date == f.date && u.time == f.time && u.status == f.status && u.location == f.location
    ensures u.federationId == f.federationId && u.category == f.category
  {
    Match(f.id.GetOr(m.id), f.date, f.time, f.homeTeamId.GetOr(m.homeTeamId), f.awayTeamId.GetOr(m.awayTeamId),
          if f.homeScore.Some? then f.homeScore else m.homeScore,
          if f.awayScore.Some? then f.awayScore else m.awayScore,
          f.federationId, f.category, f.location, f.status)
  }

  /** A new match from a form with both teams chosen. */
  function NewMatch(f: MatchForm, newId: string): (m: Match)
    requires BothTeams(f)
    ensures m.id == newId && m.homeTeamId == f.homeTeamId.value && m.awayTeamId == f.awayTeamId.value
    ensures m.status == f.status && m.homeScore == f.homeScore && m.awayScore == f.awayScore
    ensures m.date == f.date && m.time == f.time && m.location == f.location
    ensures m.federationId == f.federationId && m.category == f.category
  {
    Match(newId, f.date, f.time, f.homeTeamId.value, f.awayTeamId.value, f.homeScore, f.awayScore,
          f.federationId, f.category, f.location, f.status)
  }

  /**
   * `handleSaveMatch`: without both teams nothing changes and the dialog stays open; a form
   * with a (non-empty) id rewrites the matches with that id; any other form appends a match
   * with id `newId`. Nothing compares the two teams.
   */
  function SaveMatch(d: MatchDialog, newId: string): (r: MatchDialog)
    ensures !BothTeams(d.form) ==> r == d
    ensures BothTeams(d.form) ==> !r.open && r.form == d.form
    ensures BothTeams(d.form) && Truthy(d.form.id) ==>
      && |r.matches| == |d.matches|
      && (forall i :: 0 <= i < |d.matches| && d.matches[i].id != d.form.id.value ==> r.matches[i] == d.matches[i])
      && (forall i :: 0 <= i < |d.matches| && d.matches[i].id == d.form.id.value ==>
            && r.matches[i].id == d.matches[i].id
            && r.matches[i].homeTeamId == d.form.homeTeamId.value
            && r.matches[i].awayTeamId == d.form.awayTeamId.value
            && r.matches[i].status == d.form.status
            && r.matches[i].date == d.form.date && r.matches[i].time == d.form.time
            && r.matches[i].homeScore == (if d.form.homeScore.Some? then d.form.homeScore else d.matches[i].homeScore)
            && r.matches[i].awayScore == (if d.form.awayScore.Some? then d.form.awayScore else d.matches[i].awayScore)
            && r.matches[i].location == d.form.location
            && r.matches[i].federationId == d.form.federationId
            && r.matches[i].category == d.form.category
            && r.matches[i] == Overlay(d.matches[i], d.form))
    ensures BothTeams(d.form) && !Truthy(d.form.id) ==>
      && |r.matches| == |d.matches| + 1
      && r.matches[..|d.matches|] == d.matches
      && r.matches[|d.matches|].id == newId
      && r.matches[|d.matches|].homeTeamId == d.form.homeTeamId.value
      && r.matches[|d.matches|].awayTeamId == d.form.awayTeamId.value
      && r.matches[|d.matches|].date == d.form.date && r.matches[|d.matches|].time == d.form.time
      && r.matches[|d.matches|].homeScore == d.form.homeScore
      && r.matches[|d.matches|].awayScore == d.form.awayScore
      && r.matches[|d.matches|].status == d.form.status
      && r.matches[|d.matches|].location == d.form.location
      && r.matches[|d.matches|].federationId == d.form.federationId
      && r.matches[|d.matches|].category == d.form.category
      && r.matches[|d.matches|] == NewMatch(d.form, newId)
  {
    if !BothTeams(d.form) then d
    else if Truthy(d.form.id) then MatchDialog(Replace(d.matches, (m: Match) => m.id == d.form.id.value, m => Overlay(m, d.form)), false, d.form)
    else MatchDialog(d.matches + [NewMatch(d.form, newId)], false, d.form)
  }

  /** A fixture only changes when both of its teams are chosen. */
  lemma SaveNeedsBothTeams(d: MatchDialog, newId: string)
    ensures SaveMatch(d, newId).matches != d.matches ==> BothTeams(d.form)
    ensures BothTeams(d.form) && !Truthy(d.form.id) ==> SaveMatch(d, newId).matches != d.matches
  {
    if BothTeams(d.form) && !Truthy(d.form.id) {
      assert |SaveMatch(d, newId).matches| != |d.matches|;
    }
  }

  /** Saving the blank form once both teams are chosen schedules a 0 - 0 Mayores match of f2 at 18:00 today. */
  lemma BlankFormAddsDefaultMatch(d: MatchDialog, home: string, away: string, today: string, newId: string)
    requires home != "" && away != ""
    ensures var shown := OpenMatchModal(d, None, today);
            var r := SaveMatch(shown.(form := shown.form.(homeTeamId := Some(home), awayTeamId := Some(away))), newId);
      && r.matches == d.matches + [r.matches[|d.matches|]]
      && r.matches[|d.matches|] == Match(newId, today, DefaultTime, home, away, Some(0), Some(0),
                                          DefaultFederation, DefaultCategory, "", Scheduled)
  {
  }

  /** A team drawn against itself is accepted like any other pairing. */
  lemma SameTeamTwiceAccepted(d: MatchDialog, team: string, today: string, newId: string)
    requires team != ""
    ensures var shown := OpenMatchModal(d, None, today);
            var r := SaveMatch(shown.(form := shown.form.(homeTeamId := Some(team), awayTeamId := Some(team))), newId);
      && r.matches == d.matches + [r.matches[|d.matches|]]
      && r.matches[|d.matches|].homeTeamId == r.matches[|d.matches|].awayTeamId == team
  {
  }

  /** Opening a match (ids distinct, id non-empty, both team ids non-empty) and saving changes nothing. */
  lemma {:induction false} OpenThenSaveUnchanged(d: MatchDialog, i: int, today: string, newId: string)
    requires 0 <= i < |d.matches| && UniqueMatchIds(d.matches)
    requires d.matches[i].id != "" && d.matches[i].homeTeamId != "" && d.matches[i].awayTeamId != ""
    ensures SaveMatch(OpenMatchModal(d, Some(d.matches[i]), today), newId).matches == d.matches
  {
    var m := d.matches[i];
    var shown := OpenMatchModal(d, Some(m), today);
    var r := SaveMatch(shown, newId);
    assert Overlay(m, shown.form) == m;
    forall j | 0 <= j < |d.matches|
      ensures r.matches[j] == d.matches[j]
    {
      if d.matches[j].id == m.id {
        assert j == i;
      }
    }
  }

  /** With a fresh id for a new match, a save keeps match ids distinct: an edit keeps every id. */
  lemma SaveKeepsIdsUnique(d: MatchDialog, newId: string)
    requires UniqueMatchIds(d.matches)
    requires forall i :: 0 <= i < |d.matches| ==> d.matches[i].id != newId
    ensures UniqueMatchIds(SaveMatch(d, newId).matches)
  {
    var r := SaveMatch(d, newId);
    if BothTeams(d.form) && Truthy(d.form.id) {
      ReplaceKeepsKey(d.matches, (m: Match) => m.id == d.form.id.value, m => Overlay(m, d.form), (m: Match) => m.id);
      assert forall i :: 0 <= i < |d.matches| ==> r.matches[i].id == d.matches[i].id;
    }
  }

  /** Saving an edit whose id no match has (the match was deleted meanwhile) changes no match. */
  lemma SaveUnknownIdUnchanged(d: MatchDialog, newId: string)
    requires BothTeams(d.form) && Truthy(d.form.id)
    requires forall i :: 0 <= i < |d.matches| ==> d.matches[i].id != d.form.id.value
    ensures SaveMatch(d, newId).matches == d.matches
  {
    ReplaceNothingHit(d.matches, (m: Match) => m.id == d.form.id.value, m => Overlay(m, d.form));
  }

  function IdIsNot(id: string): Match -> bool {
    (m: Match) => m.id != id
  }

  /** `handleDeleteMatch`: once confirmed, exactly the matches with that id leave the list, the rest in order. */
  function DeleteMatch(ms: seq<Match>, id: string, confirmed: bool): (r: seq<Match>)
    ensures !confirmed ==> r == ms
    ensures confirmed ==> forall m :: m in r <==> m in ms && m.id != id
    ensures confirmed ==> IsSubsequence(r, ms)
    ensures confirmed ==> forall m :: multiset(r)[m] == if m.id != id then multiset(ms)[m] else 0
  {
    if !confirmed then ms
    else
      FilterIsSubsequence(ms, IdIsNot(id));
      FilterMultiplicity(ms, IdIsNot(id));
      Filter(ms, IdIsNot(id))
  }

  /** Adding a match with a fresh id and then deleting that id restores the list. */
  lemma {:induction false} CreateThenDelete(d: MatchDialog, newId: string)
    requires BothTeams(d.form) && !Truthy(d.form.id)
    requires forall m :: m in d.matches ==> m.id != newId
    ensures DeleteMatch(SaveMatch(d, newId).matches, newId, true) == d.matches
  {
    var created := NewMatch(d.form, newId);
    assert SaveMatch(d, newId).matches == d.matches + [created];
    FilterConcat(d.matches, [created], IdIsNot(newId));
    FilterKeepsAll(d.matches, IdIsNot(newId));
    assert Filter([created], IdIsNot(newId)) == [];
  }
}

=== FILE: news.dfy ===
/**
 * Publishing a generated article (App.tsx `handleGenerateNews`): a successful generation is put
 * at the front of the news list, tagged with the selected federation; a failure leaves the list
 * as it was. The id and the publication date come from the clock and are parameters here.
 */
module NewsDesk {
  import opened Wrappers
  import opened Seqs
  import opened Text
  import opened Types
  import opened Gateway
  import opened Filters
  import GeminiService

  const GeneratedImage := "https://images.unsplash.com/photo-1541252260730-0412e8e2108e?w=800&fit=crop"
  const GeneratedAuthor := "IA Assistant"

  /** The stored article for a generated one; "all" publishes it without a federation. */
  function Stored(a: Article, selected: string, id: string, date: string): (n: NewsArticle)
    ensures n.title == a.title && n.summary == a.summary && n.content == a.content
    ensures n.federationId == (if selected == All then None else Some(selected))
    ensures n.id == id && n.publishDate == date && n.author == GeneratedAuthor && n.imageUrl == GeneratedImage
  {
    NewsArticle(id, a.title, a.content, a.summary, GeneratedImage, date, GeneratedAuthor,
                if selected == All then None else Some(selected))
  }

  /** A generated article goes to the front of the list; a failed generation publishes nothing. */
  function PublishGenerated(news: seq<NewsArticle>, generated: Result<Article, Fault>,
                            selected: string, id: string, date: string): (r: seq<NewsArticle>)
    ensures generated.Failure? ==> r == news
    ensures generated.Success? ==> |r| == |news| + 1 && r[1..] == news
    ensures generated.Success? ==>
      && r[0].title == generated.value.title && r[0].summary == generated.value.summary
      && r[0].content == generated.value.content && r[0].id == id && r[0].publishDate == date
      && r[0].federationId == (if selected == All then None else Some(selected))
      && r[0] == Stored(generated.value, selected, id, date)
  {
    if generated.Failure? then news
    else [Stored(generated.value, selected, id, date)] + news
  }

  /** A freshly published article heads the news shown for the federation it was published under. */
  lemma {:induction false} PublishedHeadsFeed(news: seq<NewsArticle>, a: Article, selected: string, id: string, date: string)
    ensures var r := PublishGenerated(news, Success(a), selected, id, date);
      && FilteredNews(r, selected) != []
      && FilteredNews(r, selected)[0] == r[0]
  {
    var r := PublishGenerated(news, Success(a), selected, id, date);
    assert r == [r[0]] + news;
    if selected != All {
      assert NewsOf(selected)(r[0]);
      assert r[1..] == news;
      assert Filter(r, NewsOf(selected)) == [r[0]] + Filter(news, NewsOf(selected));
    }
  }

  /** Without a key, publishing never fails and the article mentions the requested topic. */
  lemma PublishWithoutKey(news: seq<NewsArticle>, key: Option<string>, topic: string,
                          gw: Request -> Reply, parse: string -> Option<Article>,
                          selected: string, id: string, date: string)
    requires !HasKey(key)
    ensures var r := PublishGenerated(news, GeminiService.GenerateNewsArticle(key, topic, None, gw, parse), selected, id, date);
      |r| == |news| + 1 && Includes(r[0].content, topic)
  {
  }
}

=== FILE: players.dfy ===
/**
 * The player roster editor of the admin view (App.tsx `handleSavePlayer`,
 * `handleEditPlayerClick`, `handleDeletePlayer`). The editor holds the player list, the id of
 * the player being edited (if any) and the form's text fields.
 */
module PlayerAdmin {
  import opened Wrappers
  import opened Seqs
  import opened Text
  import opened Types

  /** The form's fields, all typed as text; the photo is the only field that may be absent. */
  datatype PlayerForm = PlayerForm(
    name: string,
    surname: string,
    dorsal: string,
    position: string,
    dni: string,
    memberId: string,
    photoUrl: Option<string>)

  datatype PlayerEditor = PlayerEditor(players: seq<Player>, editing: Option<string>, form: PlayerForm)

  /** The form after a reset: blank fields, the default position and an empty photo. */
  const EmptyForm := PlayerForm("", "", "", "Jugador", "", "", Some(""))

  /** The player `p` with the form's fields written over the editable ones. */
  function Edited(p: Player, form: PlayerForm): (q: Player)
    ensures q.id == p.id && q.teamId == p.teamId && q.goals == p.goals
    ensures q.name == form.name && q.surname == form.surname && q.position == form.position
    ensures q.dorsal == ParseIntOr0(form.dorsal)
    ensures q.dni == Some(form.dni) && q.memberId == Some(form.memberId) && q.photoUrl == form.photoUrl
  {
    p.(name := form.name, surname := form.surname, dorsal := ParseIntOr0(form.dorsal),
       position := form.position, dni := Some(form.dni), memberId := Some(form.memberId),
       photoUrl := form.photoUrl)
  }

  /** A player created from the form for team `teamId`, with no goals yet. */
  function Created(id: string, teamId: string, form: PlayerForm): (q: Player)
    ensures q.id == id && q.teamId == teamId && q.goals == 0
    ensures q == Edited(q, form)
  {
    Player(id, form.name, form.surname, teamId, form.position, 0, ParseIntOr0(form.dorsal),
           Some(form.dni), Some(form.memberId), form.photoUrl)
  }

  /**
   * `handleSavePlayer`: nothing happens without a selected team; with a (non-empty) player id
   * under edit that player is rewritten and the edit ends; otherwise a new player with id
   * `newId` joins the selected team. The form is reset in both cases.
   */
  function SavePlayer(ed: PlayerEditor, adminTeam: Option<Team>, newId: string): (r: PlayerEditor)
    ensures adminTeam.None? ==> r == ed
    ensures adminTeam.Some? ==> r.form == EmptyForm
    ensures adminTeam.Some? ==> r.editing == (if Truthy(ed.editing) then None else ed.editing)
    ensures adminTeam.Some? && Truthy(ed.editing) ==>
      && |r.players| == |ed.players|
      && (forall i :: 0 <= i < |ed.players| ==>
            && r.players[i].id == ed.players[i].id
            && r.players[i].teamId == ed.players[i].teamId
            && r.players[i].goals == ed.players[i].goals)
      && (forall i :: 0 <= i < |ed.players| && ed.players[i].id != ed.editing.value ==>
            r.players[i] == ed.players[i])
      && (forall i :: 0 <= i < |ed.players| && ed.players[i].id == ed.editing.value ==>
            && r.players[i].name == ed.form.name
            && r.players[i].surname == ed.form.surname
            && r.players[i].dorsal == ParseIntOr0(ed.form.dorsal)
            && r.players[i].position == ed.form.position
            && r.players[i].dni == Some(ed.form.dni)
            && r.players[i].memberId == Some(ed.form.memberId)
            && r.players[i].photoUrl == ed.form.photoUrl
            && r.players[i] == Edited(ed.players[i], ed.form))
    ensures adminTeam.Some? && !Truthy(ed.editing) ==>
      && |r.players| == |ed.players| + 1
      && r.players[..|ed.players|] == ed.players
      && r.players[|ed.players|].id == newId
      && r.players[|ed.players|].teamId == adminTeam.value.id
      && r.players[|ed.players|].goals == 0
      && r.players[|ed.players|].dorsal == ParseIntOr0(ed.form.dorsal)
      && r.players[|ed.players|] == Created(newId, adminTeam.value.id, ed.form)
  {
    if adminTeam.None? then ed
    else if Truthy(ed.editing) then
      PlayerEditor(Replace(ed.players, (p: Player) => p.id == ed.editing.value, p => Edited(p, ed.form)), None, EmptyForm)
    else
      PlayerEditor(ed.players + [Created(newId, adminTeam.value.id, ed.form)], ed.editing, EmptyForm)
  }

  /** The form filled from a player: absent optional fields become empty text. */
  function FormOf(p: Player): (f: PlayerForm)
    ensures f.name == p.name && f.surname == p.surname && f.position == p.position
    ensures ParseIntOr0(f.dorsal) == p.dorsal
    ensures p.dni.Some? ==> f.dni == p.dni.value
    ensures p.dni.None? ==> f.dni == ""
    ensures p.memberId.Some? ==> f.memberId == p.memberId.value
    ensures p.memberId.None? ==> f.memberId == ""
    ensures p.photoUrl.Some? ==> f.photoUrl == p.photoUrl
    ensures p.photoUrl.None? ==> f.photoUrl == Some("")
  {
    ParseIntOfIntToString(p.dorsal);
    PlayerForm(p.name, p.surname, IntToString(p.dorsal), p.position,
               p.dni.GetOr(""), p.memberId.GetOr(""), Some(p.photoUrl.GetOr("")))
  }

  /** `handleEditPlayerClick`: the form shows the player and the player's id is under edit. */
  function EditPlayerClick(ed: PlayerEditor, p: Player): (r: PlayerEditor)
    ensures r.players == ed.players && r.editing == Some(p.id)
    ensures Edited(p, r.form).dorsal == p.dorsal
  {
    PlayerEditor(ed.players, Some(p.id), FormOf(p))
  }

  function IdIsNot(id: string): Player -> bool {
    (p: Player) => p.id != id
  }

  /**
   * `handleDeletePlayer`: once confirmed, every player with that id leaves the list, and an
   * edit of that player is abandoned with the form reset.
   */
  function DeletePlayer(ed: PlayerEditor, id: string, confirmed: bool): (r: PlayerEditor)
    ensures !confirmed ==> r == ed
    ensures confirmed ==> forall p :: p in r.players <==> p in ed.players && p.id != id
    ensures confirmed ==> IsSubsequence(r.players, ed.players)
    ensures confirmed ==> forall p :: multiset(r.players)[p] == if p.id != id then multiset(ed.players)[p] else 0
    ensures confirmed && ed.editing == Some(id) ==> r.editing == None && r.form == EmptyForm
    ensures ed.editing != Some(id) ==> r.editing == ed.editing && r.form == ed.form
  {
    if !confirmed then ed
    else
      var kept := Filter(ed.players, IdIsNot(id));
      FilterIsSubsequence(ed.players, IdIsNot(id));
      FilterMultiplicity(ed.players, IdIsNot(id));
      if ed.editing == Some(id) then PlayerEditor(kept, None, EmptyForm)
      else PlayerEditor(kept, ed.editing, ed.form)
  }

  /**
   * Opening a player with all optional fields present for edit and saving without touching
   * the form leaves the roster as it was (ids distinct, the id non-empty).
   */
  lemma {:induction false} EditThenSaveUnchanged(ed: PlayerEditor, i: int, team: Team, newId: string)
    requires 0 <= i < |ed.players| && UniquePlayerIds(ed.players)
    requires ed.players[i].id != ""
    requires ed.players[i].dni.Some? && ed.players[i].memberId.Some? && ed.players[i].photoUrl.Some?
    ensures SavePlayer(EditPlayerClick(ed, ed.players[i]), Some(team), newId).players == ed.players
  {
    var p := ed.players[i];
    var shown := EditPlayerClick(ed, p);
    var r := SavePlayer(shown, Some(team), newId);
    assert Edited(p, shown.form) == p;
    forall j | 0 <= j < |ed.players|
      ensures r.players[j] == ed.players[j]
    {
      if ed.players[j].id == p.id {
        assert j == i;
      }
    }
  }

  /**
   * Opening any player for edit and saving without touching the form changes nothing but the
   * optional fields: a missing dni, member number or photo comes back as empty text.
   */
  lemma {:induction false} EditThenSaveFillsMissing(ed: PlayerEditor, i: int, team: Team, newId: string)
    requires 0 <= i < |ed.players| && ed.players[i].id != ""
    ensures var p := ed.players[i];
            SavePlayer(EditPlayerClick(ed, p), Some(team), newId).players[i]
              == p.(dni := Some(p.dni.GetOr("")), memberId := Some(p.memberId.GetOr("")),
                    photoUrl := Some(p.photoUrl.GetOr("")))
  {
    var p := ed.players[i];
    var shown := EditPlayerClick(ed, p);
    assert shown.editing == Some(p.id);
    var q := SavePlayer(shown, Some(team), newId).players[i];
    assert q == Edited(p, shown.form);
  }

  /**
   * A player whose id is the empty string cannot be edited: saving after opening it appends a
   * new player instead of rewriting it.
   */
  lemma EmptyIdEditAppends(ed: PlayerEditor, p: Player, team: Team, newId: string)
    requires p.id == ""
    ensures |SavePlayer(EditPlayerClick(ed, p), Some(team), newId).players| == |ed.players| + 1
  {
  }

  /** Saving a new player and then deleting it by its fresh id restores the roster. */
  lemma {:induction false} CreateThenDelete(ed: PlayerEditor, team: Team, newId: string)
    requires !Truthy(ed.editing)
    requires forall p :: p in ed.players ==> p.id != newId
    ensures DeletePlayer(SavePlayer(ed, Some(team), newId), newId, true).players == ed.players
  {
    var created := Created(newId, team.id, ed.form);
    var saved := SavePlayer(ed, Some(team), newId);
    assert saved.players == ed.players + [created];
    FilterConcat(ed.players, [created], IdIsNot(newId));
    FilterKeepsAll(ed.players, IdIsNot(newId));
    assert Filter([created], IdIsNot(newId)) == [];
  }

  /** Saving keeps ids distinct when a new player gets an id no player has. */
  lemma SaveKeepsIdsUnique(ed: PlayerEditor, team: Option<Team>, newId: string)
    requires UniquePlayerIds(ed.players)
    requires forall p :: p in ed.players ==> p.id != newId
    ensures UniquePlayerIds(SavePlayer(ed, team, newId).players)
  {
    var r := SavePlayer(ed, team, newId);
    if team.Some? && !Truthy(ed.editing) {
      forall i, j | 0 <= i < j < |r.players|
        ensures r.players[i].id != r.players[j].id
      {
        if j == |ed.players| {
          assert r.players[i] in ed.players;
        }
      }
    }
  }
}

=== FILE: prompts.dfy ===
/**
 * The prompts both service copies send. Only the lines that carry inputs are kept verbatim; the
 * fixed instructions around them are kept as single constants without the template's indentation.
 */
module Prompts {
  import opened Wrappers
  import opened Text

  const ArticlePersona := "Actúa como un periodista deportivo experto en Handball de la provincia de Chubut (Argentina)."
  const ArticleTopicLabel := "Escribe una noticia breve y emocionante sobre: "
  const DetailsLabel := "Detalles del partido: "
  const ArticleShapeLine := "\n" + ArticleShape
  const ArticleShape := "Devuelve la respuesta estrictamente en formato JSON con la siguiente estructura: title, summary, content."

  /** The match-details line: present only when the details are a non-empty string. */
  function DetailsClause(details: Option<string>): (line: string)
    ensures line == "" <==> !Truthy(details)
    ensures Truthy(details) ==> Includes(line, details.value)
  {
    if Truthy(details) then
      IncludesInConcat(DetailsLabel, details.value, "");
      assert DetailsLabel + details.value + "" == DetailsLabel + details.value;
      DetailsLabel + details.value
    else ""
  }

  const ArticleHead := ArticlePersona + "\n" + ArticleTopicLabel

  /** Everything after the topic: the end of the topic line, the details line and the output shape. */
  function ArticleTail(details: Option<string>): string {
    ".\n" + DetailsClause(details) + ArticleShapeLine
  }

  function ArticlePrompt(topic: string, details: Option<string>): string {
    ArticleHead + topic + ArticleTail(details)
  }

  /** The article prompt names the topic. */
  lemma ArticlePromptHasTopic(topic: string, details: Option<string>)
    ensures Includes(ArticlePrompt(topic, details), topic)
  {
    IncludesInConcat(ArticleHead, topic, ArticleTail(details));
  }

  /** The article prompt carries the details line whenever the details are a non-empty string. */
  lemma ArticlePromptHasDetails(topic: string, details: Option<string>)
    requires Truthy(details)
    ensures Includes(ArticlePrompt(topic, details), DetailsLabel + details.value)
  {
    var clause := DetailsClause(details);
    IncludesSelf(clause);
    IncludesBefore(".\n" + clause, ArticleShapeLine, clause);
    IncludesAfter(ArticleHead + topic, ArticleTail(details), clause);
  }

  /** Missing or empty details leave the prompt exactly as if none had been given, and only they do. */
  lemma ArticlePromptWithoutDetails(topic: string, details: Option<string>)
    ensures !Truthy(details) <==> ArticlePrompt(topic, details) == ArticlePrompt(topic, None)
  {
    var clause := DetailsClause(details);
    assert |ArticlePrompt(topic, details)| == |ArticlePrompt(topic, None)| + |clause|;
  }

  const StrategyCoach := "Soy el entrenador del equipo de handball "
  const StrategyOpponent := " de Chubut. Vamos a jugar contra "
  const StrategyAsk := ".\nDame 3 claves tácticas breves para ganar este partido. Enfócate en defensa y ataque rápido."

  function StrategyPrompt(teamName: string, opponentName: string): string {
    StrategyCoach + teamName + StrategyOpponent + opponentName + StrategyAsk
  }

  /** The strategy prompt names both teams. */
  lemma StrategyPromptContents(teamName: string, opponentName: string)
    ensures Includes(StrategyPrompt(teamName, opponentName), teamName)
    ensures Includes(StrategyPrompt(teamName, opponentName), opponentName)
  {
    var p := StrategyPrompt(teamName, opponentName);
    assert p == StrategyCoach + teamName + (StrategyOpponent + opponentName + StrategyAsk);
    IncludesInConcat(StrategyCoach, teamName, StrategyOpponent + opponentName + StrategyAsk);
    assert p == (StrategyCoach + teamName + StrategyOpponent) + opponentName + StrategyAsk;
    IncludesInConcat(StrategyCoach + teamName + StrategyOpponent, opponentName, StrategyAsk);
  }

  const ImagePromptDetailed := "A hyper-realistic, cinematic wide shot of a professional handball match in an indoor stadium in Argentina. Intense action, a player in a blue and green jersey jumping high to throw the ball. Dramatic lighting, blurred crowd in background, high resolution, 4k, sports photography."
  const ImagePromptShort := "A hyper-realistic, cinematic wide shot of a professional handball match in an indoor stadium in Argentina. Intense action, blue vs green jersey."
  const HeroAspectRatio := "16:9"
}

=== FILE: rankings.dfy ===
/**
 * The two ranked tables (App.tsx standings and top scorers): the filtered list sorted with the
 * comparator `(a, b) => b.points - a.points` and `(a, b) => b.goals - a.goals` respectively.
 */
module Rankings {
  import opened Wrappers
  import opened Seqs
  import opened Sorting
  import opened Types
  import opened Filters

  function Points(t: Team): int {
    t.points
  }

  function Goals(p: Player): int {
    p.goals
  }

  /** The standings table: the listed teams, best points first, ties in list order. */
  function Standings(teams: seq<Team>, selected: string, gender: Gender): (r: seq<Team>)
    ensures multiset(r) == multiset(FilteredTeams(teams, selected, gender, None))
    ensures forall i, j :: 0 <= i < j < |r| ==> r[i].points >= r[j].points
    ensures forall t :: t in r <==> t in teams && TeamShown(t, selected, gender, None)
  {
    var listed := FilteredTeams(teams, selected, gender, None);
    var r := SortDesc(listed, Points);
    SameMembers(r, listed);
    r
  }

  /** The scorers table: the listed players, most goals first, ties in list order. */
  function TopScorers(players: seq<Player>, teams: seq<Team>, selected: string, gender: Gender): (r: seq<Player>)
    ensures multiset(r) == multiset(FilteredPlayers(players, teams, selected, gender))
    ensures forall i, j :: 0 <= i < j < |r| ==> r[i].goals >= r[j].goals
    ensures forall p :: p in r <==> p in players && exists t :: t in teams && t.id == p.teamId && TeamShown(t, selected, gender, None)
  {
    var listed := FilteredPlayers(players, teams, selected, gender);
    var r := SortDesc(listed, Goals);
    SameMembers(r, listed);
    r
  }

  /** Teams level on points keep the order in which the team list holds them. */
  lemma StandingsStable(teams: seq<Team>, selected: string, gender: Gender)
    ensures forall k :: KeyClass(Standings(teams, selected, gender), Points, k)
                     == KeyClass(FilteredTeams(teams, selected, gender, None), Points, k)
  {
    SortDescStable(FilteredTeams(teams, selected, gender, None), Points);
  }

  /** Players level on goals keep the order in which the player list holds them. */
  lemma TopScorersStable(players: seq<Player>, teams: seq<Team>, selected: string, gender: Gender)
    ensures forall k :: KeyClass(TopScorers(players, teams, selected, gender), Goals, k)
                     == KeyClass(FilteredPlayers(players, teams, selected, gender), Goals, k)
  {
    SortDescStable(FilteredPlayers(players, teams, selected, gender), Goals);
  }
}

=== FILE: seqs.dfy ===
/** Order-preserving selection and in-place rewriting over sequences: `Array.prototype.filter` and `map`. */
module Seqs {

  /** `r` can be obtained from `s` by deleting elements, without reordering the rest. */
  ghost predicate IsSubsequence<T>(r: seq<T>, s: seq<T>)
    decreases |s|
  {
    || |r| == 0
    || (&& |s| > 0
        && (|| (r[0] == s[0] && IsSubsequence(r[1..], s[1..]))
            || IsSubsequence(r, s[1..])))
  }

  /** The elements of `s` that satisfy `p`, in their original order and with their multiplicity. */
  function Filter<T(!new)>(s: seq<T>, p: T -> bool): (r: seq<T>)
    ensures |r| <= |s|
    ensures forall x :: x in r <==> x in s && p(x)
  {
    if |s| == 0 then []
    else
      var rest := Filter(s[1..], p);
      assert s == [s[0]] + s[1..];
      if p(s[0]) then [s[0]] + rest else rest
  }

  /**
   * `s.map(x => hit(x) ? f(x) : x)`: the elements that `hit` selects are rewritten by `f`,
   * every other element stays where and what it was.
   */
  function Replace<T>(s: seq<T>, hit: T -> bool, f: T -> T): (r: seq<T>)
    ensures |r| == |s|
    ensures forall i :: 0 <= i < |s| && !hit(s[i]) ==> r[i] == s[i]
    ensures forall i :: 0 <= i < |s| && hit(s[i]) ==> r[i] == f(s[i])
  {
    seq(|s|, i requires 0 <= i < |s| => if hit(s[i]) then f(s[i]) else s[i])
  }

  /** When nothing is selected, the rewrite changes nothing: an edit of an unknown id is a no-op. */
  lemma ReplaceNothingHit<T>(s: seq<T>, hit: T -> bool, f: T -> T)
    requires forall i :: 0 <= i < |s| ==> !hit(s[i])
    ensures Replace(s, hit, f) == s
  {
  }

  /**
   * A key that the rewrite keeps is kept at every position: when `f` never changes a selected
   * record's id, the ids of the list stay as they were.
   */
  lemma ReplaceKeepsKey<T, K>(s: seq<T>, hit: T -> bool, f: T -> T, key: T -> K)
    requires forall i :: 0 <= i < |s| && hit(s[i]) ==> key(f(s[i])) == key(s[i])
    ensures forall i :: 0 <= i < |s| ==> key(Replace(s, hit, f)[i]) == key(s[i])
  {
  }

  /** Rewriting twice with an `f` that is idempotent on the selection equals rewriting once. */
  lemma ReplaceTwice<T>(s: seq<T>, hit: T -> bool, f: T -> T)
    requires forall i :: 0 <= i < |s| && hit(s[i]) ==> hit(f(s[i])) && f(f(s[i])) == f(s[i])
    ensures Replace(Replace(s, hit, f), hit, f) == Replace(s, hit, f)
  {
  }

  /** A filter keeps each passing value exactly as often as the input holds it, and no other value. */
  lemma {:induction false} FilterMultiplicity<T(!new)>(s: seq<T>, p: T -> bool)
    ensures forall x :: multiset(Filter(s, p))[x] == if p(x) then multiset(s)[x] else 0
    decreases |s|
  {
    if |s| > 0 {
      FilterMultiplicity(s[1..], p);
      assert s == [s[0]] + s[1..];
    }
  }

  /** What a filter keeps is a subsequence of its input: the kept elements stay in their order. */
  lemma {:induction false} FilterIsSubsequence<T(!new)>(s: seq<T>, p: T -> bool)
    ensures IsSubsequence(Filter(s, p), s)
    decreases |s|
  {
    if |s| > 0 {
      FilterIsSubsequence(s[1..], p);
    }
  }

  /** Filtering commutes with concatenation, so the order of what is kept is the order of `s`. */
  lemma {:induction false} FilterConcat<T(!new)>(a: seq<T>, b: seq<T>, p: T -> bool)
    ensures Filter(a + b, p) == Filter(a, p) + Filter(b, p)
    decreases |a|
  {
    if |a| == 0 {
      assert a + b == b;
    } else {
      assert (a + b)[1..] == a[1..] + b;
      FilterConcat(a[1..], b, p);
    }
  }

  /** Two filters in a row select the same elements as one filter by the conjunction. */
  lemma {:induction false} FilterTwice<T(!new)>(s: seq<T>, p: T -> bool, q: T -> bool)
    ensures Filter(Filter(s, p), q) == Filter(s, x => p(x) && q(x))
    decreases |s|
  {
    if |s| > 0 {
      FilterTwice(s[1..], p, q);
    }
  }

  /** A filter that every element passes is the identity. */
  lemma {:induction false} FilterKeepsAll<T(!new)>(s: seq<T>, p: T -> bool)
    requires forall i :: 0 <= i < |s| ==> p(s[i])
    ensures Filter(s, p) == s
    decreases |s|
  {
    if |s| > 0 {
      FilterKeepsAll(s[1..], p);
    }
  }

  /** Filters by two predicates that agree everywhere keep the same elements. */
  lemma {:induction false} FilterSamePredicate<T(!new)>(s: seq<T>, p: T -> bool, q: T -> bool)
    requires forall x :: p(x) == q(x)
    ensures Filter(s, p) == Filter(s, q)
    decreases |s|
  {
    if |s| > 0 {
      FilterSamePredicate(s[1..], p, q);
    }
  }

  /** A filter that nothing passes keeps nothing. */
  lemma {:induction false} NoneKept<T(!new)>(s: seq<T>, p: T -> bool)
    requires forall y :: y in s ==> !p(y)
    ensures Filter(s, p) == []
    decreases |s|
  {
    if |s| > 0 {
      assert s[0] in s;
      NoneKept(s[1..], p);
    }
  }

  /** Two filters in a row still keep a subsequence of the input. */
  lemma FilterTwiceIsSubsequence<T(!new)>(s: seq<T>, p: T -> bool, q: T -> bool)
    ensures IsSubsequence(Filter(Filter(s, p), q), s)
  {
    FilterTwice(s, p, q);
    FilterIsSubsequence(s, x => p(x) && q(x));
  }

  /** Every sequence is a subsequence of itself. */
  lemma {:induction false} IsSubsequenceRefl<T>(s: seq<T>)
    ensures IsSubsequence(s, s)
    decreases |s|
  {
    if |s| > 0 {
      IsSubsequenceRefl(s[1..]);
    }
  }
}

=== FILE: sorting.dfy ===
/**
 * `Array.prototype.sort` with a comparator `(a, b) => key(b) - key(a)`: a stable sort into
 * non-increasing key order (stability has been required of the sort since ECMAScript 2019).
 */
module Sorting {
  import opened Seqs

  /** Keys never increase from left to right. */
  predicate SortedDesc<T>(s: seq<T>, key: T -> int) {
    forall i, j :: 0 <= i < j < |s| ==> key(s[i]) >= key(s[j])
  }

  /** The elements of `s` whose key is `k`, in the order `s` lists them. */
  function KeyClass<T(!new)>(s: seq<T>, key: T -> int, k: int): seq<T> {
    Filter(s, KeyIs(key, k))
  }

  /** The test "has key `k`" as a first-class predicate. */
  function KeyIs<T>(key: T -> int, k: int): T -> bool {
    x => key(x) == k
  }

  /** Every group of equal keys keeps its relative order between `s` and `r`. */
  ghost predicate StableWrt<T(!new)>(r: seq<T>, s: seq<T>, key: T -> int) {
    forall k :: KeyClass(r, key, k) == KeyClass(s, key, k)
  }

  /** Places `x` after every element whose key is at least its own. */
  function InsertDesc<T>(x: T, s: seq<T>, key: T -> int): (r: seq<T>)
    requires SortedDesc(s, key)
    ensures SortedDesc(r, key)
    ensures multiset(r) == multiset(s) + multiset{x}
    ensures |r| == |s| + 1
    ensures r[0] == x || (|s| > 0 && r[0] == s[0])
    decreases |s|
  {
    if |s| == 0 then [x]
    else if key(s[0]) >= key(x) then
      var rest := InsertDesc(x, s[1..], key);
      var r := [s[0]] + rest;
      assert s == [s[0]] + s[1..];
      ConsSorted(s[0], rest, key);
      assert multiset(s) == multiset{s[0]} + multiset(s[1..]);
      assert multiset(r) == multiset{s[0]} + multiset(rest);
      r
    else
      ConsSorted(x, s, key);
      [x] + s
  }

  /** An element with a key no smaller than the head of a sorted sequence can go in front. */
  lemma ConsSorted<T>(a: T, s: seq<T>, key: T -> int)
    requires SortedDesc(s, key)
    requires |s| > 0 ==> key(s[0]) <= key(a)
    ensures SortedDesc([a] + s, key)
  {
    var r := [a] + s;
    forall i, j | 0 <= i < j < |r|
      ensures key(r[i]) >= key(r[j])
    {
      if i == 0 {
        assert r[j] == s[j - 1];
      } else {
        assert r[i] == s[i - 1] && r[j] == s[j - 1];
      }
    }
  }

  /** Insertion sort that inserts the elements from first to last. */
  function SortDesc<T>(s: seq<T>, key: T -> int): (r: seq<T>)
    ensures SortedDesc(r, key)
    ensures multiset(r) == multiset(s)
    ensures |r| == |s|
    decreases |s|
  {
    if |s| == 0 then []
    else
      assert s == s[..|s| - 1] + [s[|s| - 1]];
      InsertDesc(s[|s| - 1], SortDesc(s[..|s| - 1], key), key)
  }

  /** Inserting `x` appends it to its own key class and leaves the other classes alone. */
  lemma {:induction false} InsertDescClasses<T(!new)>(x: T, s: seq<T>, key: T -> int, k: int)
    requires SortedDesc(s, key)
    ensures KeyClass(InsertDesc(x, s, key), key, k)
         == KeyClass(s, key, k) + (if key(x) == k then [x] else [])
    decreases |s|
  {
    var p := KeyIs(key, k);
    FilterSingle(x, p);
    if |s| == 0 {
      assert InsertDesc(x, s, key) == [x];
    } else if key(s[0]) >= key(x) {
      var rest := InsertDesc(x, s[1..], key);
      InsertDescClasses(x, s[1..], key, k);
      assert InsertDesc(x, s, key) == [s[0]] + rest;
      ConsClass(s[0], s[1..], rest, p, if key(x) == k then [x] else []);
      assert s == [s[0]] + s[1..];
    } else {
      assert InsertDesc(x, s, key) == [x] + s;
      FilterConcat([x], s, p);
      if key(x) == k {
        SortedBelowClassEmpty(s, key, k);
      }
    }
  }

  /** Prepending the same element to two sequences whose filters differ by a suffix keeps that difference. */
  lemma {:induction false} ConsClass<T(!new)>(a: T, s: seq<T>, r: seq<T>, p: T -> bool, tail: seq<T>)
    requires Filter(r, p) == Filter(s, p) + tail
    ensures Filter([a] + r, p) == Filter([a] + s, p) + tail
  {
    var head := Filter([a], p);
    FilterConcat([a], s, p);
    FilterConcat([a], r, p);
    calc {
      Filter([a] + r, p);
      head + Filter(r, p);
      head + (Filter(s, p) + tail);
      (head + Filter(s, p)) + tail;
      Filter([a] + s, p) + tail;
    }
  }

  /** Filtering a one-element sequence keeps it exactly when it passes. */
  lemma {:induction false} FilterSingle<T(!new)>(x: T, p: T -> bool)
    ensures Filter([x], p) == if p(x) then [x] else []
  {
    assert [x][1..] == [];
  }

  /** In a non-increasing sequence whose first key is below `k`, nothing has key `k`. */
  lemma {:induction false} SortedBelowClassEmpty<T(!new)>(s: seq<T>, key: T -> int, k: int)
    requires SortedDesc(s, key)
    requires |s| > 0 && key(s[0]) < k
    ensures KeyClass(s, key, k) == []
  {
    assert forall y :: y in s ==> !KeyIs(key, k)(y) by {
      forall y | y in s
        ensures !KeyIs(key, k)(y)
      {
        var i :| 0 <= i < |s| && s[i] == y;
        assert key(s[0]) >= key(s[i]);
      }
    }
    NoneKept(s, KeyIs(key, k));
  }

  /** The sort is stable: equal keys come out in the order they went in. */
  lemma {:induction false} SortDescStable<T(!new)>(s: seq<T>, key: T -> int)
    ensures StableWrt(SortDesc(s, key), s, key)
    decreases |s|
  {
    forall k {
      SortDescClass(s, key, k);
    }
  }

  lemma {:induction false} SortDescClass<T(!new)>(s: seq<T>, key: T -> int, k: int)
    ensures KeyClass(SortDesc(s, key), key, k) == KeyClass(s, key, k)
    decreases |s|
  {
    if |s| > 0 {
      var init, last := s[..|s| - 1], s[|s| - 1];
      var sorted := SortDesc(init, key);
      var tail := if key(last) == k then [last] else [];
      calc {
        KeyClass(SortDesc(s, key), key, k);
        KeyClass(InsertDesc(last, sorted, key), key, k);
        { InsertDescClasses(last, sorted, key, k); }
        KeyClass(sorted, key, k) + tail;
        { SortDescClass(init, key, k); }
        KeyClass(init, key, k) + tail;
        { AppendClass(init, last, KeyIs(key, k)); }
        Filter(init + [last], KeyIs(key, k));
        { assert s == init + [last]; }
        KeyClass(s, key, k);
      }
    }
  }

  /** Appending one element extends the filter by that element exactly when it passes. */
  lemma {:induction false} AppendClass<T(!new)>(s: seq<T>, x: T, p: T -> bool)
    ensures Filter(s + [x], p) == Filter(s, p) + (if p(x) then [x] else [])
  {
    FilterConcat(s, [x], p);
    FilterSingle(x, p);
  }

  /** Sequences with the same multiset hold the same elements. */
  lemma SameMembers<T>(r: seq<T>, s: seq<T>)
    requires multiset(r) == multiset(s)
    ensures forall x :: x in r <==> x in s
  {
    forall x
      ensures x in r <==> x in s
    {
      assert x in r <==> x in multiset(r);
      assert x in s <==> x in multiset(s);
    }
  }
}

=== FILE: src_gemini_service.dfy ===
/**
 * The second copy of the service (src/services/geminiService.ts). It sends the same article and
 * strategy prompts but answers differently: news and image generation never fail, falling back
 * to fixed content, and the demo fixtures differ. Match-sheet analysis still throws, exactly as
 * in the other copy.
 */
module SrcGeminiService {
  import opened Wrappers
  import opened Gateway
  import DataUri
  import Prompts

  /** The demo article, the same whatever the topic. */
  const DemoArticle := Article(
    "Resumen de la Jornada (Modo Demo)",
    "No se detectó una API Key configurada.",
    "Para generar noticias reales con inteligencia artificial, necesitas configurar tu API KEY de Google Gemini en el archivo index.html. \n\nMientras tanto, la aplicación funcionará en modo demostración.")

  /** The article returned in place of any failure. */
  const ErrorArticle := Article(
    "Error generando noticia",
    "Hubo un problema al conectar con la IA.",
    "Por favor verifica tu conexión a internet y que tu API Key sea válida.")

  const NoSheetText := "No response from AI analyzer"
  const InvalidFileText := "Formato de archivo inválido. Se espera una cadena Base64 válida."

  const StrategyDemoAdvice := "Configura la API Key en index.html para recibir consejos tácticos reales. (Modo Demo: Juega 6-0 en defensa y corre el contraataque)."
  const StrategyEmptyAdvice := "No se pudo generar la estrategia."
  const StrategyErrorAdvice := "Error al conectar con el asistente."

  const FallbackImageUrl := "https://images.unsplash.com/photo-1516475429286-465d815a0df4?q=80&w=2070&auto=format&fit=crop"

  function ArticleRequest(topic: string, matchDetails: Option<string>): Request {
    Request(TextModel, None, Prompts.ArticlePrompt(topic, matchDetails), true, None)
  }

  /** `generateNewsArticle(topic, matchDetails)`: total; every failure becomes `ErrorArticle`. */
  function GenerateNewsArticle(
    key: Option<string>, topic: string, matchDetails: Option<string>,
    gw: Request -> Reply, parse: string -> Option<Article>): (r: Article)
    ensures !HasKey(key) ==> r == DemoArticle
    ensures HasKey(key) ==>
      var reply := gw(ArticleRequest(topic, matchDetails));
      var parsed := reply.Answered? && Truthy(reply.text) && parse(reply.text.value).Some?;
      && (parsed ==> r == parse(reply.text.value).value)
      && (!parsed ==> r == ErrorArticle)
  {
    if !HasKey(key) then DemoArticle
    else
      match ParseReply(gw(ArticleRequest(topic, matchDetails)), "No response from AI", parse)
      case Success(article) => article
      case Failure(_) => ErrorArticle
  }

  /** Without a key the article does not depend on the topic, the details or the gateway. */
  lemma DemoArticleIgnoresInput(
    key: Option<string>, topic1: string, topic2: string, details1: Option<string>, details2: Option<string>,
    gw1: Request -> Reply, gw2: Request -> Reply, parse1: string -> Option<Article>, parse2: string -> Option<Article>)
    requires !HasKey(key)
    ensures GenerateNewsArticle(key, topic1, details1, gw1, parse1)
         == GenerateNewsArticle(key, topic2, details2, gw2, parse2)
  {
  }

  function StrategyRequest(teamName: string, opponentName: string): Request {
    Request(TextModel, None, Prompts.StrategyPrompt(teamName, opponentName), false, None)
  }

  /** `generateMatchStrategy(teamName, opponentName)`: total, with the demo advice when there is no key. */
  function GenerateMatchStrategy(
    key: Option<string>, teamName: string, opponentName: string, gw: Request -> Reply): (r: string)
    ensures !HasKey(key) ==> r == StrategyDemoAdvice
    ensures HasKey(key) ==>
      var reply := gw(StrategyRequest(teamName, opponentName));
      && (reply.Failed? ==> r == StrategyErrorAdvice)
      && (reply.Answered? && Truthy(reply.text) ==> r == reply.text.value)
      && (reply.Answered? && !Truthy(reply.text) ==> r == StrategyEmptyAdvice)
  {
    if !HasKey(key) then StrategyDemoAdvice
    else
      match gw(StrategyRequest(teamName, opponentName))
      case Failed(_) => StrategyErrorAdvice
      case Answered(text, _) => if Truthy(text) then text.value else StrategyEmptyAdvice
  }

  const SheetPrompt := "Analiza este documento (planilla de partido de Handball). Devuelve un JSON con: homeTeam, awayTeam, homeScore, awayScore, y una lista de players (name, team, dorsal, goals)."

  /** The shorter example sheet returned without a key: five scorers, three home and two away. */
  const SheetFixture := Extraction(
    "Club Comunicaciones B", "G.E.I.", 23, 25,
    [ Scorer("Pinto Junior, Severino", Home, 10, 6),
      Scorer("Flores, Juan Ignacio", Home, 17, 6),
      Scorer("Riadigos, Santiago", Home, 31, 8),
      Scorer("Costa, Federico", Away, 3, 9),
      Scorer("Notaro, Agustin", Away, 20, 4) ])

  function SheetRequest(mimeType: string, data: string): Request {
    Request(TextModel, Some(Inline(Some(mimeType), Some(data))), SheetPrompt, true, None)
  }

  /** `analyzeMatchSheet(fileBase64)`: like the other copy, it throws on every failure. */
  function AnalyzeMatchSheet(
    key: Option<string>, fileBase64: string,
    gw: Request -> Reply, parse: string -> Option<Extraction>): (r: Result<Extraction, Fault>)
    ensures !HasKey(key) ==> r == Success(SheetFixture)
    ensures HasKey(key) && DataUri.Split(fileBase64).None? ==> r == Failure(Thrown(InvalidFileText))
    ensures HasKey(key) && DataUri.Split(fileBase64).Some? ==>
      var (mime, data) := DataUri.Split(fileBase64).value;
      var reply := gw(SheetRequest(mime, data));
      && DataUri.Matches(fileBase64, mime, data)
      && (r.Success? <==> reply.Answered? && Truthy(reply.text) && parse(reply.text.value).Some?)
      && (r.Success? ==> r.value == parse(reply.text.value).value)
      && (reply.Failed? ==> r == Failure(GatewayFault(reply.cause)))
      && (reply.Answered? && !Truthy(reply.text) ==> r == Failure(Thrown(NoSheetText)))
  {
    if !HasKey(key) then Success(SheetFixture)
    else
      match DataUri.Split(fileBase64)
      case None => Failure(Thrown(InvalidFileText))
      case Some((mime, data)) => ParseReply(gw(SheetRequest(mime, data)), NoSheetText, parse)
  }

  /** The fixture: 23 to 25, five scorers (three home, two away), each with at least one goal. */
  lemma SheetFixtureFacts()
    ensures SheetFixture.homeScore == 23 && SheetFixture.awayScore == 25
    ensures |SheetFixture.players| == 5
    ensures forall i :: 0 <= i < |SheetFixture.players| ==> SheetFixture.players[i].goals >= 1
    ensures forall i :: 0 <= i < 3 ==> SheetFixture.players[i].team == Home
    ensures forall i :: 3 <= i < 5 ==> SheetFixture.players[i].team == Away
  {
  }

  function ImageRequest(): Request {
    Request(ImageModel, None, Prompts.ImagePromptShort, false, Some(Prompts.HeroAspectRatio))
  }

  /** `generateHandballImage()`: total; the fixed photograph stands in for every failure. */
  function GenerateHandballImage(key: Option<string>, gw: Request -> Reply): (r: string)
    ensures !HasKey(key) ==> r == FallbackImageUrl
    ensures HasKey(key) && gw(ImageRequest()).Failed? ==> r == FallbackImageUrl
    ensures HasKey(key) && gw(ImageRequest()).Answered? ==>
      var parts := gw(ImageRequest()).parts;
      && ((forall i :: 0 <= i < |parts| ==> !HasImage(parts[i])) ==> r == FallbackImageUrl)
      && (forall i :: 0 <= i < |parts| && HasImage(parts[i]) && (forall j :: 0 <= j < i ==> !HasImage(parts[j]))
                      ==> r == ImageUri(parts[i]))
  {
    if !HasKey(key) then FallbackImageUrl
    else
      match gw(ImageRequest())
      case Failed(_) => FallbackImageUrl
      case Answered(_, parts) =>
        match FirstImage(parts)
        case Some(uri) => uri
        case None => FallbackImageUrl
  }
}

=== FILE: teams.dfy ===
/**
 * The team dialog of the admin view (App.tsx `openTeamModal`, `handleSaveTeam`). The form is a
 * partial team: a form opened on a team carries all its fields, a blank form carries only the
 * descriptive ones.
 */
module TeamAdmin {
  import opened Wrappers
  import opened Seqs
  import opened Types

  /** A team's table statistics. */
  datatype Stats = Stats(points: int, played: int, won: int, lost: int, drawn: int, goalDifference: int)

  datatype TeamForm = TeamForm(
    id: Option<string>,
    name: string,
    city: string,
    category: string,
    federationId: string,
    gender: Option<Gender>,
    logoUrl: Option<string>,
    stats: Option<Stats>)

  datatype TeamDialog = TeamDialog(teams: seq<Team>, open: bool, form: TeamForm)

  const ZeroStats := Stats(0, 0, 0, 0, 0, 0)
  const DefaultCategory := "Mayores"
  const DefaultFederation := "f2"
  const DefaultLogo := "https://images.unsplash.com/photo-1541252260730-0412e8e2108e?w=200&h=200&fit=crop"

  function StatsOf(t: Team): Stats {
    Stats(t.points, t.played, t.won, t.lost, t.drawn, t.goalDifference)
  }

  function WithStats(t: Team, s: Stats): (u: Team)
    ensures StatsOf(u) == s
    ensures u.id == t.id && u.name == t.name && u.gender == t.gender && u.logoUrl == t.logoUrl
    ensures u.city == t.city && u.category == t.category && u.federationId == t.federationId
  {
    t.(points := s.points, played := s.played, won := s.won, lost := s.lost, drawn := s.drawn,
       goalDifference := s.goalDifference)
  }

  /** The blank form of a new team. */
  const BlankForm := TeamForm(None, "", "", DefaultCategory, DefaultFederation, Some(Masculino), Some(DefaultLogo), None)

  /** The form opened on an existing team: every field of the team. */
  function FormOf(t: Team): (f: TeamForm)
    ensures f.id == Some(t.id) && f.name == t.name && f.gender == Some(t.gender)
    ensures f.city == t.city && f.category == t.category && f.federationId == t.federationId
    ensures f.logoUrl == t.logoUrl
    ensures f.stats == Some(StatsOf(t))
  {
    TeamForm(Some(t.id), t.name, t.city, t.category, t.federationId, Some(t.gender), t.logoUrl, Some(StatsOf(t)))
  }

  /** `openTeamModal(team?)`: the dialog opens on the team's fields or on the blank form. */
  function OpenTeamModal(d: TeamDialog, team: Option<Team>): (r: TeamDialog)
    ensures r.teams == d.teams && r.open
    ensures team.None? ==> r.form == BlankForm
    ensures team.None? ==> r.form.id == None && r.form.stats == None && r.form.name == "" && r.form.city == ""
    ensures team.None? ==> r.form.category == DefaultCategory && r.form.federationId == DefaultFederation
    ensures team.None? ==> r.form.gender == Some(Masculino) && r.form.logoUrl == Some(DefaultLogo)
    ensures team.Some? ==> r.form.id == Some(team.value.id)
  {
    TeamDialog(d.teams, true, if team.Some? then FormOf(team.value) else BlankForm)
  }

  /** `{ ...t, ...form }`: the form's present fields written over the team's. */
  function Overlay(t: Team, f: TeamForm): (u: Team)
    ensures u.id == f.id.GetOr(t.id)
    ensures u.name == f.name && u.city == f.city && u.category == f.category
    ensures u.federationId == f.federationId
    ensures u.gender == f.gender.GetOr(t.gender)
    ensures u.logoUrl == (if f.logoUrl.Some? then f.logoUrl else t.logoUrl)
    ensures StatsOf(u) == f.stats.GetOr(StatsOf(t))
  {
    var described := t.(id := f.id.GetOr(t.id), name := f.name, city := f.city, category := f.category,
                        federationId := f.federationId, gender := f.gender.GetOr(t.gender),
                        logoUrl := if f.logoUrl.Some? then f.logoUrl else t.logoUrl);
    WithStats(described, f.stats.GetOr(StatsOf(t)))
  }

  /** A new team from the form: fresh id, gender defaulting to Masculino, all statistics zero. */
  function NewTeam(f: TeamForm, newId: string): (t: Team)
    ensures t.id == newId && t.name == f.name && t.gender == f.gender.GetOr(Masculino)
    ensures t.city == f.city && t.category == f.category && t.federationId == f.federationId
    ensures t.logoUrl == f.logoUrl
    ensures StatsOf(t) == ZeroStats
  {
    Team(newId, f.name, f.city, f.category, f.gender.GetOr(Masculino), f.federationId, f.logoUrl, 0, 0, 0, 0, 0, 0)
  }

  /**
   * `handleSaveTeam`: an empty name changes nothing and leaves the dialog open; a form with a
   * (non-empty) id rewrites the teams with that id; any other form appends a new team with
   * id `newId`. The dialog closes after a save.
   */
  function SaveTeam(d: TeamDialog, newId: string): (r: TeamDialog)
    ensures d.form.name == "" ==> r == d
    ensures d.form.name != "" ==> !r.open && r.form == d.form
    ensures d.form.name != "" && Truthy(d.form.id) ==>
      && |r.teams| == |d.teams|
      && (forall i :: 0 <= i < |d.teams| && d.teams[i].id != d.form.id.value ==> r.teams[i] == d.teams[i])
      && (forall i :: 0 <= i < |d.teams| && d.teams[i].id == d.form.id.value ==>
            && r.teams[i].id == d.teams[i].id
            && r.teams[i].name == d.form.name
            && r.teams[i].city == d.form.city
            && r.teams[i].category == d.form.category
            && r.teams[i].federationId == d.form.federationId
            && r.teams[i].gender == d.form.gender.GetOr(d.teams[i].gender)
            && r.teams[i].logoUrl == (if d.form.logoUrl.Some? then d.form.logoUrl else d.teams[i].logoUrl)
            && StatsOf(r.teams[i]) == d.form.stats.GetOr(StatsOf(d.teams[i]))
            && r.teams[i] == Overlay(d.teams[i], d.form))
    ensures d.form.name != "" && !Truthy(d.form.id) ==>
      && |r.teams| == |d.teams| + 1
      && r.teams[..|d.teams|] == d.teams
      && r.teams[|d.teams|].id == newId
      && r.teams[|d.teams|].name == d.form.name
      && r.teams[|d.teams|].gender == d.form.gender.GetOr(Masculino)
      && r.teams[|d.teams|].city == d.form.city
      && r.teams[|d.teams|].category == d.form.category
      && r.teams[|d.teams|].federationId == d.form.federationId
      && r.teams[|d.teams|].logoUrl == d.form.logoUrl
      && StatsOf(r.teams[|d.teams|]) == ZeroStats
      && r.teams[|d.teams|] == NewTeam(d.form, newId)
  {
    if d.form.name == "" then d
    else if Truthy(d.form.id) then TeamDialog(Replace(d.teams, (t: Team) => t.id == d.form.id.value, t => Overlay(t, d.form)), false, d.form)
    else TeamDialog(d.teams + [NewTeam(d.form, newId)], false, d.form)
  }

  /** Opening a named team (ids distinct, id non-empty) and saving unedited changes no team. */
  lemma {:induction false} OpenThenSaveUnchanged(d: TeamDialog, i: int, newId: string)
    requires 0 <= i < |d.teams| && UniqueTeamIds(d.teams)
    requires d.teams[i].id != "" && d.teams[i].name != ""
    ensures SaveTeam(OpenTeamModal(d, Some(d.teams[i])), newId).teams == d.teams
  {
    var t := d.teams[i];
    var shown := OpenTeamModal(d, Some(t));
    var r := SaveTeam(shown, newId);
    assert Overlay(t, shown.form) == t;
    forall j | 0 <= j < |d.teams|
      ensures r.teams[j] == d.teams[j]
    {
      if d.teams[j].id == t.id {
        assert j == i;
      }
    }
  }

  /** Saving an edit whose id no team has (the team was deleted meanwhile) changes no team. */
  lemma SaveUnknownIdUnchanged(d: TeamDialog, newId: string)
    requires d.form.name != "" && Truthy(d.form.id)
    requires forall i :: 0 <= i < |d.teams| ==> d.teams[i].id != d.form.id.value
    ensures SaveTeam(d, newId).teams == d.teams
  {
    ReplaceNothingHit(d.teams, (t: Team) => t.id == d.form.id.value, t => Overlay(t, d.form));
  }

  /** With a fresh id for a new team, a save keeps team ids distinct: an edit keeps every id. */
  lemma SaveKeepsIdsUnique(d: TeamDialog, newId: string)
    requires UniqueTeamIds(d.teams)
    requires forall i :: 0 <= i < |d.teams| ==> d.teams[i].id != newId
    ensures UniqueTeamIds(SaveTeam(d, newId).teams)
  {
    var r := SaveTeam(d, newId);
    if d.form.name != "" && Truthy(d.form.id) {
      ReplaceKeepsKey(d.teams, (t: Team) => t.id == d.form.id.value, t => Overlay(t, d.form), (t: Team) => t.id);
      assert forall i :: 0 <= i < |d.teams| ==> r.teams[i].id == d.teams[i].id;
    }
  }

  /** Submitting the same edit twice leaves the teams as one submission does. */
  lemma SaveEditTwice(d: TeamDialog, newId: string, laterId: string)
    requires d.form.name != "" && Truthy(d.form.id)
    ensures SaveTeam(SaveTeam(d, newId), laterId).teams == SaveTeam(d, newId).teams
  {
    var hit := (t: Team) => t.id == d.form.id.value;
    var f := (t: Team) => Overlay(t, d.form);
    forall i | 0 <= i < |d.teams| && hit(d.teams[i])
      ensures hit(f(d.teams[i])) && f(f(d.teams[i])) == f(d.teams[i])
    {
    }
    ReplaceTwice(d.teams, hit, f);
  }

  /** Saving the blank form once named adds a Masculino team of the default federation and category. */
  lemma BlankFormAddsDefaultTeam(d: TeamDialog, name: string, newId: string)
    requires name != ""
    ensures var shown := OpenTeamModal(d, None);
            var r := SaveTeam(shown.(form := shown.form.(name := name)), newId);
      && r.teams == d.teams + [r.teams[|d.teams|]]
      && r.teams[|d.teams|].gender == Masculino
      && r.teams[|d.teams|].federationId == DefaultFederation
      && r.teams[|d.teams|].category == DefaultCategory
      && r.teams[|d.teams|].logoUrl == Some(DefaultLogo)
  {
  }

  /** A team whose id is empty cannot be edited: saving it appends a copy with zeroed statistics. */
  lemma EmptyIdTeamSavedAsNew(d: TeamDialog, t: Team, newId: string)
    requires t.id == "" && t.name != ""
    ensures var r := SaveTeam(OpenTeamModal(d, Some(t)), newId);
      && |r.teams| == |d.teams| + 1
      && r.teams[|d.teams|].name == t.name && r.teams[|d.teams|].city == t.city
      && StatsOf(r.teams[|d.teams|]) == ZeroStats
  {
  }
}

=== FILE: text.dfy ===
/**
 * The string operations the application leans on: `Number.prototype.toString`, `parseInt`,
 * `String.prototype.toLowerCase` (ASCII letters only) and `String.prototype.includes`.
 */
module Text {

  predicate IsDigit(c: char) {
    '0' <= c <= '9'
  }

  predicate AllDigits(s: string) {
    forall i :: 0 <= i < |s| ==> IsDigit(s[i])
  }

  /** The decimal digit character for `d`. */
  function DigitChar(d: nat): (c: char)
    requires d < 10
    ensures IsDigit(c)
  {
    (d + '0' as int) as char
  }

  /** The value of a decimal digit character. */
  function DigitValue(c: char): (d: nat)
    requires IsDigit(c)
    ensures d < 10 && DigitChar(d) == c
  {
    c as int - '0' as int
  }

  /** Decimal notation of a natural number, without leading zeros. */
  function NatToString(n: nat): (s: string)
    ensures |s| > 0 && AllDigits(s)
    ensures |s| > 1 ==> s[0] != '0'
    decreases n
  {
    if n < 10 then [DigitChar(n)] else NatToString(n / 10) + [DigitChar(n % 10)]
  }

  /** `n.toString()` for an integer `n`. */
  function IntToString(n: int): string {
    if n < 0 then "-" + NatToString(-n) else NatToString(n)
  }

  /** The value of a string of decimal digits; the empty string reads as 0. */
  function DigitsValue(ds: string): nat
    requires AllDigits(ds)
    decreases |ds|
  {
    if |ds| == 0 then 0 else DigitsValue(ds[..|ds| - 1]) * 10 + DigitValue(ds[|ds| - 1])
  }

  /** The longest prefix of `s` made of decimal digits. */
  function LeadingDigits(s: string): (ds: string)
    ensures AllDigits(ds) && ds <= s
    ensures |ds| < |s| ==> !IsDigit(s[|ds|])
    decreases |s|
  {
    if |s| == 0 || !IsDigit(s[0]) then [] else [s[0]] + LeadingDigits(s[1..])
  }

  /** The value of the leading digits of `s`, 0 when there are none. */
  function Magnitude(s: string): nat {
    DigitsValue(LeadingDigits(s))
  }

  /**
   * `parseInt(s) || 0`: an optional sign followed by the leading decimal digits. When no digit
   * follows, `parseInt` yields NaN, which `|| 0` turns into 0 (and so does `-0`).
   */
  function ParseIntOr0(s: string): (n: int)
    ensures |s| > 0 && IsDigit(s[0]) ==> n >= 0
    ensures LeadingDigits(s) == [] && (|s| == 0 || (s[0] != '-' && s[0] != '+')) ==> n == 0
  {
    if |s| > 0 && s[0] == '-' then -(Magnitude(s[1..]) as int)
    else if |s| > 0 && s[0] == '+' then Magnitude(s[1..])
    else Magnitude(s)
  }

  lemma {:induction false} LeadingDigitsOfDigits(s: string)
    requires AllDigits(s)
    ensures LeadingDigits(s) == s
    decreases |s|
  {
    if |s| > 0 {
      LeadingDigitsOfDigits(s[1..]);
    }
  }

  lemma {:induction false} DigitsValueOfNatToString(n: nat)
    ensures DigitsValue(NatToString(n)) == n
    decreases n
  {
    if n >= 10 {
      var s := NatToString(n);
      DigitsValueOfNatToString(n / 10);
      assert s[..|s| - 1] == NatToString(n / 10);
    }
  }

  /** The leading digits stop at the first non-digit. */
  lemma {:induction false} LeadingDigitsOfPrefix(ds: string, rest: string)
    requires AllDigits(ds)
    requires rest == [] || !IsDigit(rest[0])
    ensures LeadingDigits(ds + rest) == ds
    decreases |ds|
  {
    if |ds| > 0 {
      assert (ds + rest)[1..] == ds[1..] + rest;
      LeadingDigitsOfPrefix(ds[1..], rest);
    } else {
      assert ds + rest == rest;
    }
  }

  /** `parseInt` reads a number up to the first non-digit: "12abc" reads as 12. */
  lemma ParseIgnoresTrailing(ds: string, rest: string)
    requires |ds| > 0 && AllDigits(ds)
    requires rest == [] || !IsDigit(rest[0])
    ensures ParseIntOr0(ds + rest) == DigitsValue(ds)
  {
    LeadingDigitsOfPrefix(ds, rest);
  }

  /** A leading minus negates the digits that follow: "-12abc" reads as -12. */
  lemma ParseNegative(ds: string, rest: string)
    requires |ds| > 0 && AllDigits(ds)
    requires rest == [] || !IsDigit(rest[0])
    ensures ParseIntOr0("-" + ds + rest) == -(DigitsValue(ds) as int)
  {
    assert ("-" + ds + rest)[1..] == ds + rest;
    LeadingDigitsOfPrefix(ds, rest);
  }

  /** A leading plus is skipped: "+7" reads as 7. */
  lemma ParsePositive(ds: string, rest: string)
    requires |ds| > 0 && AllDigits(ds)
    requires rest == [] || !IsDigit(rest[0])
    ensures ParseIntOr0("+" + ds + rest) == DigitsValue(ds)
  {
    assert ("+" + ds + rest)[1..] == ds + rest;
    LeadingDigitsOfPrefix(ds, rest);
  }

  /** A sign with no digit after it reads as 0: `parseInt("-x")` is NaN, and `NaN || 0` is 0. */
  lemma ParseSignWithoutDigits(sign: char, rest: string)
    requires sign == '-' || sign == '+'
    requires rest == [] || !IsDigit(rest[0])
    ensures ParseIntOr0([sign] + rest) == 0
  {
    assert ([sign] + rest)[1..] == rest;
  }

  /**
   * Reading back what `toString` wrote gives the number, for the integers that JavaScript
   * prints in plain decimal and holds exactly (magnitude below 2^53).
   */
  lemma {:induction false} ParseIntOfIntToString(n: int)
    ensures ParseIntOr0(IntToString(n)) == n
  {
    var m: nat := if n < 0 then -n else n;
    var digits := NatToString(m);
    LeadingDigitsOfDigits(digits);
    DigitsValueOfNatToString(m);
    if n < 0 {
      assert IntToString(n)[1..] == digits;
    }
  }

  /** ASCII lower case of one character; other characters are left as they are. */
  function LowerChar(c: char): char {
    if IsUpper(c) then (c as int + 32) as char else c
  }

  /** The character is an ASCII capital letter. */
  predicate IsUpper(c: char) {
    'A' <= c <= 'Z'
  }

  /**
   * `s.toLowerCase()` restricted to ASCII letters: no capital letter is left, each capital
   * becomes its small letter (32 code points further on), and every other character is kept.
   */
  function Lower(s: string): (r: string)
    ensures |r| == |s|
    ensures forall i :: 0 <= i < |r| ==> !IsUpper(r[i])
    ensures forall i :: 0 <= i < |s| && !IsUpper(s[i]) ==> r[i] == s[i]
    ensures forall i :: 0 <= i < |s| && IsUpper(s[i]) ==> r[i] as int == s[i] as int + 32 && 'a' <= r[i] <= 'z'
  {
    seq(|s|, i requires 0 <= i < |s| => LowerChar(s[i]))
  }

  /** Lower-casing twice is lower-casing once. */
  lemma LowerIdempotent(s: string)
    ensures Lower(Lower(s)) == Lower(s)
  {
  }

  /** `t` occurs in `s` starting at position `i`. */
  predicate OccursAt(s: string, t: string, i: int) {
    0 <= i && i + |t| <= |s| && s[i..i + |t|] == t
  }

  /** `s.includes(t)`: some position of `s` starts an occurrence of `t`. */
  function Includes(s: string, t: string): (b: bool)
    ensures b <==> exists i :: OccursAt(s, t, i)
    decreases |s|
  {
    if |t| > |s| then false
    else if s[..|t|] == t then assert OccursAt(s, t, 0); true
    else
      var rest := Includes(s[1..], t);
      assert rest ==> exists i :: OccursAt(s, t, i) by {
        if rest {
          var j :| OccursAt(s[1..], t, j);
          assert s[1..][j..j + |t|] == s[j + 1..j + 1 + |t|];
          assert OccursAt(s, t, j + 1);
        }
      }
      assert (exists i :: OccursAt(s, t, i)) ==> rest by {
        if i :| OccursAt(s, t, i) {
          assert i != 0;
          assert s[1..][i - 1..i - 1 + |t|] == s[i..i + |t|];
          assert OccursAt(s[1..], t, i - 1);
        }
      }
      rest
  }

  /** The empty string occurs in every string. */
  lemma IncludesEmpty(s: string)
    ensures Includes(s, "")
  {
    assert OccursAt(s, "", 0);
  }

  /** Every string occurs in itself. */
  lemma IncludesSelf(s: string)
    ensures Includes(s, s)
  {
    assert OccursAt(s, s, 0);
  }

  /** What occurs in a part of a concatenation occurs in the whole. */
  lemma IncludesInConcat(a: string, t: string, b: string)
    ensures Includes(a + t + b, t)
  {
    assert (a + t + b)[|a|..|a| + |t|] == t;
    assert OccursAt(a + t + b, t, |a|);
  }

  /** An occurrence inside `t` is an occurrence inside `a + t`. */
  lemma IncludesAfter(a: string, t: string, x: string)
    requires Includes(t, x)
    ensures Includes(a + t, x)
  {
    var i :| OccursAt(t, x, i);
    assert (a + t)[|a| + i..|a| + i + |x|] == t[i..i + |x|];
    assert OccursAt(a + t, x, |a| + i);
  }

  /** An occurrence inside `t` is an occurrence inside `t + b`. */
  lemma IncludesBefore(t: string, b: string, x: string)
    requires Includes(t, x)
    ensures Includes(t + b, x)
  {
    var i :| OccursAt(t, x, i);
    assert (t + b)[i..i + |x|] == t[i..i + |x|];
    assert OccursAt(t + b, x, i);
  }
}

=== FILE: types.dfy ===
/** The records of the application's data store (types.ts). */
module Types {
  import opened Wrappers

  datatype Gender = Masculino | Femenino

  datatype Player = Player(
    id: string,
    name: string,
    surname: string,
    teamId: string,
    position: string,
    goals: int,
    dorsal: int,
    dni: Option<string>,
    memberId: Option<string>,
    photoUrl: Option<string>)

  datatype Team = Team(
    id: string,
    name: string,
    city: string,
    category: string,
    gender: Gender,
    federationId: string,
    logoUrl: Option<string>,
    points: int,
    played: int,
    won: int,
    lost: int,
    drawn: int,
    goalDifference: int)

  datatype MatchStatus = Scheduled | Live | Finished

  datatype Match = Match(
    id: string,
    date: string,
    time: string,
    homeTeamId: string,
    awayTeamId: string,
    homeScore: Option<int>,
    awayScore: Option<int>,
    federationId: string,
    category: string,
    location: string,
    status: MatchStatus)

  datatype NewsArticle = NewsArticle(
    id: string,
    title: string,
    content: string,
    summary: string,
    imageUrl: string,
    publishDate: string,
    author: string,
    federationId: Option<string>)

  /** No two records share an id. */
  predicate UniquePlayerIds(ps: seq<Player>) {
    forall i, j :: 0 <= i < j < |ps| ==> ps[i].id != ps[j].id
  }

  predicate UniqueTeamIds(ts: seq<Team>) {
    forall i, j :: 0 <= i < j < |ts| ==> ts[i].id != ts[j].id
  }

  predicate UniqueMatchIds(ms: seq<Match>) {
    forall i, j :: 0 <= i < j < |ms| ==> ms[i].id != ms[j].id
  }
}

=== FILE: wrappers.dfy ===
/** Option and Result, the two shapes the model uses for "maybe absent" and "may fail". */
module Wrappers {

  /** A value that may be missing: TypeScript's `T | undefined` and `T | null`. */
  datatype Option<+T> = None | Some(value: T) {

    /** The value, or `default` when it is missing (`x ?? default`). */
    function GetOr(default: T): T {
      match this
      case Some(v) => v
      case None => default
    }
  }

  /** A computation that either returns a value or throws an error. */
  datatype Result<+R, +E> = Success(value: R) | Failure(error: E)

  /** JavaScript truthiness of an optional string: present and not the empty string. */
  predicate Truthy(s: Option<string>) {
    s.Some? && s.value != ""
  }
}
